=== FILE: README.md ===
# Certichain-Africa storage network and certificate helpers, in Dafny

This project is a Dafny model of the core of Certichain-Africa. That system is
a small distributed file store, with a web application on top that issues PDF
certificates. The model covers the following parts:

- **The coordinator** (`NetworkServer`). It keeps a registry of storage nodes, a
  file registry mapping file ids to node ids, and a per-user list of file
  records. The body of every request handler runs under one lock, so each is
  modelled as one pure transition `(state, request, now) -> (state, reply)`.
  The periodic health check is a `Sweep(state, now)` step.
- **A storage node** (`StorageNode`). It has a capacity, a `used_storage`
  counter and a file index, all over an abstract disk (a map from file id to
  bytes). The three socket loops are functions over the sequence of chunks the
  socket delivers:
  - the request read, which ends at the first short 4096-byte read;
  - the bounded upload receive, in reads of at most 8192 bytes;
  - the 8 KiB download chunking.
- **The storage node's concurrency** (`StorageConcurrency`). The node serves
  each connection in its own thread and takes no lock, so an upload's capacity
  check and its counter update can be separated by other uploads. The module
  shows the resulting overcommit and proves that reserving the size at the
  check prevents it (see Findings).
- **The corrected request framing.** This is a 4-byte big-endian length prefix.
  It replaces the short-read rule (see Findings).
- **The web application's pure logic:**
  - password and email validation, and the order of the sign-up checks;
  - the certificate number `CERT-<year>-<id:05d>` and the 20-character hash
    display;
  - the payloads handed to the PDF templates.
- **The templates' text logic:**
  - placeholders for missing fields;
  - the six-entry competency list and its 3-column grid;
  - the badge's validity line.
- **The storage API's user table:** login against a stored password hash, and
  quota expansion.

Modules:

| module | file | models |
|---|---|---|
| `Common` | common.dfy | `Option`, bytes, `GiB`, concatenation of chunk lists |
| `Text` | text.dfy | Python `str.strip`, ASCII `str.lower`, `str.split(',')`, `str(int)`, `:05d` |
| `Coordinator`, `CoordinatorProofs` | coordinator.dfy, coordinator_proofs.dfy | network_server.py |
| `Transfer` | transfer.dfy | the socket loops of storage_node.py, and length-prefixed framing |
| `StorageNode` | storage_node.dfy | storage_node.py |
| `StorageConcurrency` | storage_concurrency.dfy | the unlocked upload of storage_node.py, and the reserving correction |
| `Validation` | validation.dfy | app.py validators and sign-up |
| `Certificates` | certificates.dfy | app.py certificate number, hash display, PDF payloads |
| `PdfFields` | pdf_fields.dfy | pdf_generator.py field logic |
| `UserStore` | user_store.dfy | backend_api.py `login`, `expand_storage` |

Modelling choices:

- **Parameters.** The clock (`time.time()`, the current year and today's date),
  generated ids (`uuid4`) and the SHA-256 hex digest are all parameters.
- **Timestamps** are `real`.
- **Node registry order.** The registry is a sequence of records in dictionary
  insertion order. That order is what decides ties in the placement's `max`.
  Re-registering an id replaces its record in place, as a dict assignment
  does.
- **`Valid` precondition.** Several coordinator functions require `Valid`,
  meaning no node id appears twice. This is the dictionary-key invariant,
  which every step preserves (`Coordinator.Process` ensures it).
- **`UniqueEmails` precondition.** `UserStore.Login` requires `UniqueEmails`
  for the same reason: `users_db` is a dictionary keyed by email.

## Model

| member | source | states |
|---|---|---|
| Coordinator.RegisterNodeStep | network_server.py:96-116 | The reply names the given id, or the fresh id when none is given. The stored record is online, stamped `now`, and has capacity and used defaulting to 0. Every other id's record is unchanged, and the file maps are untouched. |
| Coordinator.Store | network_server.py:110 | After a dict-style assignment, the id maps to the new record and every other id keeps its record. A known id keeps its position; a new id is appended. Unique ids stay unique. |
| Coordinator.HeartbeatStep | network_server.py:118-127 | The reply is "Node not found" exactly when the id is missing or unknown, and then the state is unchanged. Otherwise that node is stamped `now`, its used bytes become the reported value (default 0), and it is online. Every other node is unchanged. |
| Coordinator.OnlineNodes | network_server.py:129-136 | A record is listed iff it is in the registry and its status is online. |
| CoordinatorProofs.OnlineNodesOne | network_server.py:132-135 | A single record is listed iff it is online. |
| CoordinatorProofs.OnlineNodesAppend | network_server.py:132-135 | The listing of a concatenated registry is the concatenation of the parts' listings, so online records keep their registry order. |
| Coordinator.Locations | network_server.py:166-167 | Every record returned is online, registered, and listed for the file. |
| Coordinator.FileLocations | network_server.py:162-168 | An unknown file gives an empty list. Every record returned is an online registry record whose id is listed for the file, and every such record is returned. |
| Coordinator.BestIndex | network_server.py:175-187 | The index picked is the first suitable node with the most free space. There is none iff no node is online with free space ≥ size. |
| Coordinator.UploadRequestReply | network_server.py:170-189 | "No available storage nodes" iff no node is suitable. Otherwise the reply is the node described by `IsBestPlacement`. The reply is always one of these two. |
| Coordinator.RegisterFileStep | network_server.py:138-160 | The file's node-id list is extended by the given ids, without deduplication. The user's list gains the record at its end. Other files, other users and the nodes are unchanged. |
| Coordinator.UserFileList | network_server.py:196-201 | A user with no list gets an empty list; otherwise the stored list, in order. |
| CoordinatorProofs.UserFilesInOrder | network_server.py:151-154 | After a run of `register_file` calls for a user, `get_user_files` lists the earlier entries followed by the new metadata in the order of registration. |
| Coordinator.WithoutFile | network_server.py:214-218 | An entry is kept iff it does not describe the file. |
| CoordinatorProofs.WithoutFileOne | network_server.py:214-218 | A single entry is kept iff it describes another file. |
| CoordinatorProofs.WithoutFileAppend | network_server.py:214-218 | Filtering a concatenation filters each part in place, so the kept entries keep their order. |
| Coordinator.DeleteFileStep | network_server.py:203-222 | The file's registry entry is gone, and the user's list becomes that list with the file's entries filtered out (`WithoutFile`). Other files, other users and the nodes are unchanged. |
| Coordinator.Sweep | network_server.py:224-235 | A node turns offline iff it was online and more than 30 s have passed since its heartbeat. No record is removed, no node is brought online, and nothing else changes. |
| Coordinator.Process | network_server.py:71-94 | Dispatch preserves unique node ids. An unknown type gives "Unknown message type" and changes nothing. Queries leave the state unchanged. |
| CoordinatorProofs.PlacementCharacterised | network_server.py:175-187 | The placement is exactly the position `IsBestPlacement` describes. |
| CoordinatorProofs.PlacementExample | network_server.py:175-187 | On two concrete nodes: the most-free node wins whatever the order, a file too big for all gets the error, and a file only one node can take goes to it. |
| CoordinatorProofs.LocationsAppend | network_server.py:166-167 | Locations of concatenated id lists are the concatenated locations. |
| CoordinatorProofs.LocationsRepeat | network_server.py:166-167 | A node id listed twice yields its record twice. |
| CoordinatorProofs.RegisterFileExtendsLocations | network_server.py:147-149 | After `register_file`, the file's locations are the old ones followed by those of the new ids. |
| CoordinatorProofs.DeleteFileForgets | network_server.py:208-218 | After `delete_file` the file has no locations and is not in the user's list. |
| CoordinatorProofs.WithoutFileIdempotent | network_server.py:214-218 | Filtering a file out twice is filtering it out once. |
| CoordinatorProofs.DeleteFileIdempotent | network_server.py:203-222 | Deleting twice gives the state of deleting once. |
| CoordinatorProofs.SweepIdempotent | network_server.py:230-235 | A second sweep at the same instant changes nothing. |
| CoordinatorProofs.SweepExcludesStale | network_server.py:230-235 | Right after a sweep, no listed node and no placement has a heartbeat older than 30 s. |
| CoordinatorProofs.HeartbeatThenSweep | network_server.py:224-235 | A node just heard from stays online through sweeps within 30 s. The first sweep later than that takes it offline. |
| CoordinatorProofs.SweepKeepsRecords | network_server.py:230-235 | A sweep keeps every id and never adds an online node. |
| Transfer.ReadRequest | storage_node.py:141-146 | The request is the concatenation of the chunks up to and including the first one shorter than 4096 bytes. There is no request iff every chunk is full. |
| Transfer.UploadReads | storage_node.py:190-198 | Each read is 1..8192 bytes. The bytes obtained are a prefix of the stream, and their count is min(file size, stream length), or 0 for a non-positive size. |
| Transfer.ReceiveUpload | storage_node.py:190-198 | The loop as written writes exactly the first min(file size, stream length) bytes of the stream, and nothing for a non-positive size. What it writes is the concatenation of the reads `UploadReads` describes. |
| Transfer.DownloadChunks | storage_node.py:238-245 | The chunks concatenate to the file. All are full 8192-byte chunks except possibly the last non-empty one, and there are ⌈size/8192⌉ of them. |
| Transfer.DecodeEncodeLength | storage_node.py:141-146 | The 4-byte big-endian header of the corrected framing decodes to the length it encodes. |
| Transfer.Unframe | storage_node.py:141-146 | A frame is read only when header and body have arrived. The stream splits into header, message and remainder. |
| Transfer.UnframeFrame | storage_node.py:141-146 | Unframing a framed message followed by anything gives back the message and the rest. |
| Transfer.ReadFramed | storage_node.py:141-146 | The corrected read loop returns the message of the first complete frame in the bytes received so far. |
| Transfer.ReadFramedDelivers | storage_node.py:141-146 | However the framed bytes are cut into chunks, the corrected loop delivers exactly the message. |
| Transfer.FullChunkRequestCounterexample | storage_node.py:141-146 | A 4096-byte request in one full chunk never completes under the short-read rule, but is delivered by the framed read. |
| StorageNode.CalculateUsedStorage | storage_node.py:32-38 | The total is the sum of the sizes of the files on disk. |
| StorageNode.Start | storage_node.py:12-30 | Capacity is `capacity_gb * 1024^3`. The counter equals the disk usage and the file index is empty. |
| StorageNode.UploadStep | storage_node.py:171-211 | A handler run that completes with no other handler running in between, the sender having sent the declared size or closed the connection. Rejected with "Insufficient storage" iff used + size > capacity (equality is accepted), and then nothing changes. Otherwise the counter grows by the declared size, the received prefix of the stream is written under the file id (other files untouched), the index gets the entry, and the reply carries the byte count. |
| StorageNode.DownloadReply | storage_node.py:213-247 | "File not found" iff the file is not on disk. Otherwise the announced size is the on-disk size, and the ≤ 8192-byte chunks concatenate to the stored content. |
| StorageNode.DeleteStep | storage_node.py:249-266 | "File not found" iff absent, and then nothing changes. Otherwise the file leaves the disk and the index, and the counter drops by its on-disk size. |
| StorageNode.UploadResetStep | storage_node.py:162-198 | A connection reset before the declared size arrived: the file under the id is replaced by the bytes that arrived, the counter and the index are unchanged, and the reply is the exception's text. An upload that does not fit, or whose stream covers the declared size, ends as `UploadStep` does. |
| StorageNode.Handle | storage_node.py:150-158 | An unknown request type is an error with no change. A download changes nothing. |
| StorageNode.UploadDownloadRoundTrip | storage_node.py:171-247 | A complete upload followed by a download returns the uploaded bytes with the declared size. |
| StorageNode.UploadDrift | storage_node.py:190-201 | An upload that completes moves the counter away from the disk usage. The drift is the bytes declared but not received plus the size of any overwritten file. |
| StorageNode.UploadResetDrift | storage_node.py:162-201 | A reset upload moves the counter below the disk usage by the bytes that arrived, and above it by the size of any file it overwrote. |
| StorageNode.DeleteDrift | storage_node.py:254-257 | Delete keeps the counter's drift from the disk usage unchanged. |
| StorageNode.CounterExactWhileUploadsComplete | storage_node.py:190-201 | A complete upload of a new file keeps an exact counter exact. |
| StorageNode.ShortUploadOvercounts | storage_node.py:190-201 | A sender that stops early leaves the counter above the disk usage by the missing bytes. |
| StorageConcurrency.CommitUpload | storage_node.py:190-207 | What an admitted upload does after its receive loop, with no second check: the counter grows by the declared size whatever it now is, the received bytes are stored under the id (other files untouched), and the index gets the entry. |
| StorageConcurrency.UploadIsCheckThenCommit | storage_node.py:177-207 | Run with no other handler in between, the check at line 178 followed by the commit is the whole upload: a refused check is the "Insufficient storage" reply with no change, an admitted one ends in the commit's state. |
| StorageConcurrency.InterleavedUploadsCountBoth | storage_node.py:178-201 | Two uploads both admitted against the same counter both commit, so the counter grows by both sizes, and ends above the capacity whenever the two sizes together do not fit. |
| StorageConcurrency.ConcurrentUploadsOvercommit | storage_node.py:178-201 | On an empty 100-byte node, two 60-byte uploads run one after the other refuse the second, but interleaved both are admitted and the counter ends at 120. |
| StorageConcurrency.Reserve | storage_node.py:178-201 | Corrected: the check and the counter update as one step. Admitted iff used + size ≤ capacity, and then the size is charged at once; refused leaves the node as it was. A node within its capacity stays within it. |
| StorageConcurrency.CommitReserved | storage_node.py:190-207 | Corrected commit: the bytes and index entry are stored and the already-charged counter is unchanged. |
| StorageConcurrency.ReserveThenCommitIsUpload | storage_node.py:177-207 | Run alone, reserving and then committing gives the same node as the upload as written. |
| StorageConcurrency.ReservedNeverOvercommits | storage_node.py:171-266 | With reservation, no interleaving of upload checks, upload commits and deletes takes the counter over the capacity. |
| StorageConcurrency.ReservedRefusesSecond | storage_node.py:178-201 | With reservation, the second of the two 60-byte uploads on the empty 100-byte node is refused and the counter stays at 60. |
| Validation.HasCharIn | app.py:73-78 | True iff some character lies in the ASCII range. |
| Validation.ValidatePassword | app.py:70-79 | Valid iff the password has ≥ 8 characters, an ASCII capital, a small letter and a digit. The message names the first failing check, in the order length, capital, small letter, digit. |
| Validation.MatchesWholeScan | app.py:66-68 | One scan, using the first '@' and the last '.', decides whether the whole string matches the email pattern: a non-empty local part, '@', a non-empty domain, '.', then at least two ASCII letters. |
| Validation.TopLevelLabelBoundary | app.py:67 | `"a@b.c"` is rejected, because the top-level label needs two letters, and `"a@b.co"` is accepted. |
| Validation.ValidateEmail | app.py:66-68 | Accepts iff the string matches the pattern (top-level label of two letters or more), or matches it after dropping one final newline (Python's `$`). |
| Validation.NormalizeEmail | app.py:118 | The normalised email is the stripped input lower-cased character by character: same length, each character the lower-case of the stripped one. It has no whitespace at either end and no ASCII capital. |
| Validation.SignupCheck | app.py:117-137 | Accepted iff the stripped name is non-empty, the normalised email matches the pattern (so `"a@b.c"`, with a one-letter top-level label, is refused with "Adresse email invalide"), the password is valid and confirmed, and the email is not taken. The first failing check gives its message, in the source's order: name, email, password rule, "Les mots de passe ne correspondent pas", then "Cet email est déjà utilisé". |
| Validation.AcceptedEmailMatchesWhole | app.py:117-126 | An email accepted at sign-up matches the whole pattern, two-letter top-level label included, without the trailing-newline allowance. |
| Validation.TrailingNewlineAccepted | app.py:66-68 | `"a@b.co\n"` is accepted although the pattern itself does not match it. `"a@b.co "` is rejected. |
| Certificates.CertNumber | app.py:444 | The certificate number starts with "CERT-" and is at least 12 characters long. |
| Certificates.ParseCertNumber | app.py:590 | A number that parses starts with "CERT-". |
| Certificates.CertNumberRoundTrip | app.py:590 | Parsing the number of (year, id) gives back (year, id). |
| Certificates.CertNumberInjective | app.py:590 | Distinct (year, id) pairs have distinct numbers. |
| Certificates.Truncated | app.py:504 | The display is the first min(20, n) characters followed by "...". |
| Certificates.HashDisplay | app.py:592 | "Non disponible" iff the hash is missing or empty. Otherwise the truncated hash. |
| Certificates.HashDisplaySeparates | app.py:592 | Two hashes display alike iff their first 20 characters agree. |
| Certificates.IssuedHashLine | app.py:446-504 | Without a transaction hash the line is "En cours..."; with one, it is the truncated hash. |
| Certificates.IssueAndDownloadAgree | app.py:503-592 | Issue and download show the same hash line iff a transaction hash is present. |
| Certificates.DownloadPayload | app.py:586-592 | The payload has the stored keys plus the six route keys. Other stored values pass through. The number is `CertNumber(year, id)` for the current year, the hash line is `HashDisplay` of the stored hash, and the recipient is the stored one. The institution is the institution's name, else the stored one, else "Institution"; the date is the stored one, else today; the duration is the stored one, else "N/A". |
| Certificates.IssuePayload | app.py:439-446 | The same six keys over the request data, with the number for the current year and the issue-time hash line. The institution is the institution's name, else the request's, else null; the date and duration default to today and "N/A". The recipient is the request's. |
| Certificates.StoredDownloadPayload | app.py:586-592 | The corrected download payload: the number comes from the year stored with the certificate when it was issued, and every other field is the one the route as written draws. |
| Certificates.DownloadedDiplomaFields | app.py:586-592 | A downloaded diploma's number parses back to (year, id), and its hash, duration, recipient and institution are the route's values, not the template placeholders. |
| Certificates.IssueMatchesDownload | app.py:439-446 | Issue and download draw the same recipient and duration, and the same hash line once the hash is stored. Their numbers agree iff the download happens in the issue year. |
| Certificates.NumberChangesAtNewYear | app.py:590 | A certificate issued in 2025 and downloaded in 2026 is drawn with a different number. |
| Certificates.IssueMatchesStoredDownload | app.py:444 | With the corrected payload, the downloaded number is the issued one in any year, and no other certificate carries it. |
| PdfFields.DiplomaFields | pdf_generator.py:21-28 | Each diploma field is the payload value when its key is present, else the template's placeholder. The date defaults to today. |
| PdfFields.CertificationFields | pdf_generator.py:135-141 | The same for the certification template. Competencies default to the empty string. |
| PdfFields.BadgeFields | pdf_generator.py:239-246 | The same for the badge template. The competence comes from `domain`. Validity defaults to "24 mois"; a string is shown as is, an int or bool is followed by " mois", and null shows "None". |
| PdfFields.ValidityText | pdf_generator.py:242-243 | An int or bool is followed by " mois". Anything else is its `str`. |
| PdfFields.ValidityMonthsRoundTrip | pdf_generator.py:243 | A number of months reads back from its validity line. |
| PdfFields.DefaultValidity | pdf_generator.py:242-243 | With no validity, the badge says "24 mois". |
| PdfFields.StrippedTokens | pdf_generator.py:196 | The kept tokens are non-empty, and there are no more of them than pieces. |
| PdfFields.StrippedTokensClean | pdf_generator.py:196 | Already clean tokens pass through unchanged. |
| PdfFields.StrippedTokensOne | pdf_generator.py:196 | One piece gives its stripped text, or nothing when only whitespace is left. |
| PdfFields.StrippedTokensAppend | pdf_generator.py:196 | The tokens of concatenated pieces are the concatenated tokens, in order. |
| PdfFields.PadSkills | pdf_generator.py:197-198 | Exactly six entries: the tokens, then empty strings. |
| PdfFields.Skills | pdf_generator.py:195-200 | Exactly six entries. The six defaults when the competencies are empty. Otherwise the first six stripped non-empty comma-separated tokens, in order, padded with "". |
| PdfFields.SkillsOfJoin | pdf_generator.py:195-198 | Up to six clean tokens joined with commas come back in order, padded. |
| PdfFields.SkillsKeepFirstSix | pdf_generator.py:196 | More than six clean tokens are cut to the first six. |
| PdfFields.SkillsOf | pdf_generator.py:137-200 | A falsy competencies value gives the defaults, a string is parsed, and any other truthy value is an error. |
| PdfFields.GridCells | pdf_generator.py:202-209 | The loop's row counter puts skill i at row i / 3, column i % 3, and no two skills share a cell. |
| PdfFields.GridCellsDistinct | pdf_generator.py:204-207 | Distinct skills get distinct cells, and six skills use two rows. |
| UserStore.RecordOf | backend_api.py:60-63 | The record under an email, present iff some entry has that email. |
| UserStore.Login | backend_api.py:53-67 | Succeeds iff the email is a key, a password is given, and its hash equals the stored hash. It returns that record without the hash. A known email without a password is a server error (`None.encode()` raises); every other call gives "Invalid credentials". |
| UserStore.LoginAt | backend_api.py:60-67 | Logging in with a stored email is a server error without a password; otherwise it succeeds iff the password's hash equals that entry's stored hash, and returns that entry's record without the hash. |
| UserStore.FindUser | backend_api.py:79-83 | The first entry with the user id, or none iff no entry has it. |
| UserStore.ExpandStorage | backend_api.py:71-96 | "User not found" iff no entry has the id, and then the table is unchanged. Otherwise only the first matching entry changes, its quota growing by `additional_gb` (default 5) × 1024³, and the reply carries the new quota and the message. |
| UserStore.ExpandKeepsEmails | backend_api.py:89-90 | Expansion keeps every email, and so keeps them unique. |
| UserStore.ExpandTwiceAdds | backend_api.py:89-90 | Two expansions by a and b GiB add a + b GiB to the same entry. |
| UserStore.FindUserFirst | backend_api.py:80-83 | The first matching position is the one found. |
| UserStore.RecordOfAt | backend_api.py:60-63 | With unique emails, an entry's email maps to its own record. |
| UserStore.LoginSeesExpansion | backend_api.py:60-90 | A user who logs in sees the expanded quota on the next login. |
| UserStore.DemoDb | backend_api.py:22-30 | One demo entry with a 5 GiB quota and nothing used. |
| UserStore.DemoAccount | backend_api.py:22-30 | The demo account logs in with "demo123" whatever the hash, and a login to it without a password is a server error. One default expansion brings it to 10 GiB, and an unknown id is not found. |
| Text.Strip | app.py:117-118 | The result is no longer than the input, has no whitespace at either end, and is empty iff the input is all whitespace. |
| Text.StripShape | app.py:117-118 | The input is leading whitespace, the result, then trailing whitespace. |
| Text.StripIdempotent | pdf_generator.py:196 | Stripping twice is stripping once. |
| Text.Lower | app.py:118 | Lower-cases each character, keeping the length. |
| Text.LowerIdempotent | app.py:118 | The result has no ASCII capital, and lowering twice is lowering once. |
| Text.Split | pdf_generator.py:196 | At least one piece, and no piece contains the separator. |
| Text.JoinSplit | pdf_generator.py:196 | Joining the pieces with the separator gives back the string. |
| Text.SplitJoin | pdf_generator.py:196 | Splitting a join of separator-free pieces gives back the pieces. |
| Text.NatToString | app.py:444 | Decimal digits, with no leading zero. |
| Text.ParseNatToString | app.py:444 | The decimal rendering reads back as the number. |
| Text.Format05d | app.py:444 | At least five characters. A natural number is all digits; a negative one starts with '-'. |
| Text.Format05dRoundTrip | app.py:444 | The padded rendering reads back as the number. |

## Left out

- **Not modelled at all:**
  - sockets, `accept`/`connect`/`send` and the `while self.running` loops;
  - the per-connection threads. The coordinator's handler bodies run under its lock and are atomic steps. The storage node and the storage API take no lock, and only the upload's check-then-commit race is modelled (`StorageConcurrency`); the next lines name what else their threads can do;
  - `time.sleep`;
  - printing and logging.
- **Protocol details left out:**
  - the `READY` handshake before an upload and the client's ready message before a download, because they carry no data the model uses;
  - the coordinator's single `recv(8192)` of a message, because messages are taken as already parsed.
- **Malformed JSON:**
  - JSON decoding is not modelled;
  - a missing `type` reads as `None` and gets the unknown-type reply in both servers; the model's `Unknown` and `Other` requests stand for it;
  - a `file_size` that is missing or not a number makes `upload_request` and the node's upload raise `TypeError`; sizes are integers in the model;
  - a negative `file_size` is accepted by both the source and the model.
- **`register_file` crash:** if `file_info` is missing, `register_file` crashes on the `print` after it has already changed both maps. The model takes `file_info` as a record that is always present.
- Coordinator.Process: the model's reply is a value fixed when the step ends. The source builds replies that hold the coordinator's own dicts and lists (network_server.py:116, 131-136, 166-167, 189 and 200) and serializes them with `json.dumps` at network_server.py:65, after the lock is released. A heartbeat, a health-check sweep or a `register_file` append that runs in between changes what is sent; the model does not promise a reply that reflects such a later change.
- Coordinator.RegisterFileStep: the file id and user id are strings. A missing `file_id` or `user_id` is stored under the key `None` (network_server.py:141-154); the model has no such key. A `file_info` without `file_name` or `file_size` raises at network_server.py:156-157 after both maps have changed; the model's `FileInfo` always has both fields.
- Coordinator.DeleteFileStep: a missing `file_id` or `user_id` is looked up under the key `None` (network_server.py:205-218); the model's ids are strings. A stored `file_info` without `file_id` makes the filter raise `KeyError` at network_server.py:216, after the registry entry was deleted at network_server.py:211 and with the user's list unchanged; every `FileInfo` of the model has a `fileId`.
- **Arithmetic and text:**
  - floating-point rounding of timestamps and of the MB/GB figures in prints;
  - `str.lower()` on non-ASCII letters. `Text.Lower` folds only A-Z, and a non-ASCII capital in an email is left as is.
- **External systems and files:**
  - the filesystem (`open`, `stat`, `unlink`, `rglob`): the disk is a map, and the counter is set from it;
  - the node's `uuid` id and time-derived port;
  - Flask routing, sessions and rendering, SQLAlchemy (models.py), web3 and the contract call, the Pinata/IPFS upload, SHA-256 and werkzeug hashing, and reportlab drawing (coordinates, fonts, colours);
  - launcher_gui.py, config.py and static/main.js, which are not part of this model.
- **Payload values:** the templates draw whatever a payload holds. The model keeps a field as a JSON value (string, integer, boolean or null); floats, lists and objects are not modelled.
- PdfFields.ValidityText: a float validity is not modelled (it would render with Python's float `str`).
- UserStore.ExpandStorage: `additional_gb` is an integer. A float amount, which Python would accept and turn into a float quota, is not modelled.
- Transfer.UploadReads: every read returns as many bytes as asked while the stream lasts. A socket that returns fewer bytes than asked while more are still coming is not modelled; it changes only how the same prefix is split into reads.
- Transfer.ReceiveUpload: the stream is what the sender delivers before closing the connection. A sender that stalls without closing leaves `recv` at storage_node.py:194 blocked for ever; the model has no such state.
- **Explicit JSON null:** `Option` stands for a missing key, and an explicit `null` is read the same way. The source treats the two differently, as the next three lines say.
- Coordinator.RegisterNodeStep: a `node_id` of null is kept by `message.get('node_id', …)` and the node is stored under the key `None`; the model gives it a fresh id instead. A `storage_capacity` or `used_storage` of null is stored as `None`, and a later `upload_request` raises `TypeError` at network_server.py:178; the model uses 0.
- Coordinator.HeartbeatStep: a `used_storage` of null is stored as `None`, with the same later `TypeError`; the model uses 0.
- UserStore.Login: a missing or null `password` is modelled (a server error for a known email); a password of another JSON type, which also raises at backend_api.py:61, is not, because the model's password is a string.
- StorageNode.Handle: of the socket failures inside a request, only a reset during the upload loop is modelled (`UploadReset`). A failure while sending a reply or a download chunk is not.
- StorageNode.UploadStep: a handler run is one uninterrupted step. Interleaved with another thread, only the upload's check and commit are modelled (`StorageConcurrency`). A delete of the same id while an upload of it is receiving is not: it would subtract the size of the partial file (storage_node.py:254-257), after which the upload's commit adds the full declared size and an index entry for a file that is gone. The unlocked `self.used_storage += file_size` and `-=` can also lose an update when two threads run them at once.
- UserStore.ExpandStorage: the API runs threaded (backend_api.py:106) with no lock, so two expansions of the same user can interleave in `user['storage_quota'] += additional_bytes` (backend_api.py:90) and one can be lost. The model's expansion is one atomic step.
- UserStore.ExpandStorage: an `additional_gb` of null raises `TypeError` at backend_api.py:89; the model uses the default 5.

## Findings

| source | as written | input that shows it | evidently intended | confidence | as-written member | corrected member |
|---|---|---|---|---|---|---|
| storage_node.py:141-146 | A request ends at the first `recv(4096)` that returns fewer than 4096 bytes. | A request whose JSON is exactly 4096 bytes and arrives in one full chunk: the loop calls `recv` again and waits for bytes that never come. Likewise, any request cut by the network into a short first segment is parsed half-read. | Read a whole message whatever its length and segmentation, for example with a 4-byte big-endian length prefix. | not executed | Transfer.FullChunkRequestCounterexample | Transfer.ReadFramedDelivers |
| app.py:590 | Issue and download both build the certificate number from `datetime.now().year`. | A certificate issued in December 2025 and downloaded in January 2026: the issued PDF says `CERT-2025-…` and the downloaded one `CERT-2026-…`. | The number is fixed at issue: the issued number, or the year it was built with, is stored with the certificate. Numbering from the `created_at` column would not do, since it is taken in UTC (models.py:54) and the issue route reads the local clock. | not executed | Certificates.NumberChangesAtNewYear | Certificates.IssueMatchesStoredDownload |
| storage_node.py:178-201 | An upload checks `used_storage + file_size > storage_capacity` before its receive loop and adds the size after it, with no lock, while every connection has its own thread. | An empty node of 100 bytes and two uploads of 60 bytes whose checks both run before either finishes receiving: both are accepted and `used_storage` ends at 120. | Check and charge the size in one locked step, before receiving. | not executed | StorageConcurrency.ConcurrentUploadsOvercommit | StorageConcurrency.ReservedNeverOvercommits |

=== FILE: certificates.dfy ===
/** The certificate identifiers and payloads the web application builds
    (app.py): the certificate number, the displayed blockchain hash, and the
    dictionary handed to a PDF template at issue time and at download time.
    The clock is the `year` and `today` parameters. */
module Certificates {
  import opened Common
  import opened Text
  import opened PdfFields

  // ---------------------------------------------------------------------------
  // Certificate number

  const CertTag: string := "CERT"

  /** `f'CERT-{year}-{id:05d}'`. */
  function CertNumber(year: int, id: int): (r: string)
    ensures |r| >= |CertTag| + 1 + 1 + 1 + 5
    ensures r[..|CertTag| + 1] == CertTag + "-"
  {
    CertTag + "-" + IntToString(year) + "-" + Format05d(id)
  }

  predicate AllDigits(s: string) {
    forall i | 0 <= i < |s| :: IsDigit(s[i])
  }

  /** Reads a certificate number back: the tag, a year in digits and an id of
      at least five digits, separated by `-`. */
  function ParseCertNumber(s: string): (r: Option<(nat, nat)>)
    ensures r.Some? ==> |s| > |CertTag| && s[..|CertTag| + 1] == CertTag + "-"
  {
    var p := Split(s, '-');
    if |p| == 3 && p[0] == CertTag && |p[1]| > 0 && AllDigits(p[1]) && |p[2]| >= 5 && AllDigits(p[2]) then
      JoinSplit(s, '-');
      assert s == CertTag + "-" + Join(p[1..], '-');
      Some((ParseNat(p[1]), ParseNat(p[2])))
    else None
  }

  /** A string of digits holds no separator. */
  lemma DigitsHaveNoDash(s: string)
    requires AllDigits(s)
    ensures '-' !in s
  {
    assert forall i | 0 <= i < |s| :: s[i] != '-';
  }

  /** The certificate number is its three parts joined with `-`. */
  lemma CertNumberPieces(year: nat, id: nat)
    ensures CertNumber(year, id) == Join([CertTag, NatToString(year), Format05d(id)], '-')
  {
    var pieces := [CertTag, NatToString(year), Format05d(id)];
    assert Join(pieces[2..], '-') == Format05d(id);
    assert Join(pieces[1..], '-') == NatToString(year) + "-" + Format05d(id);
  }

  /** A certificate number issued for a year and a non-negative id identifies
      both: parsing it gives them back. */
  lemma CertNumberRoundTrip(year: nat, id: nat)
    ensures ParseCertNumber(CertNumber(year, id)) == Some((year, id))
  {
    var y := NatToString(year);
    var d := Format05d(id);
    var pieces := [CertTag, y, d];
    CertNumberPieces(year, id);
    DigitsHaveNoDash(y);
    DigitsHaveNoDash(d);
    assert CertTag == "CERT";
    SplitJoin(pieces, '-');
    ParseNatToString(year);
    Format05dRoundTrip(id);
  }

  /** Different (year, id) pairs never share a certificate number. */
  lemma CertNumberInjective(y1: nat, i1: nat, y2: nat, i2: nat)
    requires CertNumber(y1, i1) == CertNumber(y2, i2)
    ensures y1 == y2 && i1 == i2
  {
    CertNumberRoundTrip(y1, i1);
    CertNumberRoundTrip(y2, i2);
  }

  // ---------------------------------------------------------------------------
  // Displayed hash

  const HashShown: nat := 20
  const Ellipsis: string := "..."
  const HashUnavailable: string := "Non disponible"
  const HashPending: string := "En cours..."

  /** A transaction hash is present when it is neither missing nor empty. */
  predicate Present(h: Option<string>) {
    h.Some? && |h.value| > 0
  }

  /** `h[:20] + '...'`: at most twenty leading characters, then an ellipsis. */
  function Truncated(h: string): (r: string)
    ensures |r| == Min(|h|, HashShown) + |Ellipsis|
    ensures r[..|r| - |Ellipsis|] == h[..Min(|h|, HashShown)]
    ensures r[|r| - |Ellipsis|..] == Ellipsis
  {
    h[..Min(|h|, HashShown)] + Ellipsis
  }

  /** The hash line of a downloaded certificate (app.py `download_certificate_file`). */
  function HashDisplay(h: Option<string>): (r: string)
    ensures !Present(h) <==> r == HashUnavailable
    ensures Present(h) ==> r == Truncated(h.value)
  {
    if Present(h) then Truncated(h.value) else HashUnavailable
  }

  /** The display keeps exactly the first twenty characters: hashes agreeing on
      them look the same, hashes differing in them look different. */
  lemma HashDisplaySeparates(a: string, b: string)
    requires |a| > 0 && |b| > 0
    ensures HashDisplay(Some(a)) == HashDisplay(Some(b)) <==>
      a[..Min(|a|, HashShown)] == b[..Min(|b|, HashShown)]
  {
    var ra := HashDisplay(Some(a));
    var rb := HashDisplay(Some(b));
    if ra == rb {
      assert ra[..|ra| - |Ellipsis|] == rb[..|rb| - |Ellipsis|];
    }
  }

  /** The hash line when a certificate is issued (app.py `create_certificate`):
      the pending placeholder, replaced by the truncated transaction hash once
      the blockchain registration returned one. */
  function IssuedHashLine(tx: Option<string>): (r: string)
    ensures !Present(tx) ==> r == HashPending
    ensures Present(tx) ==> r == Truncated(tx.value)
  {
    if Present(tx) then Truncated(tx.value) else HashPending
  }

  /** When the transaction hash is stored as the certificate's hash, issue and
      download show the same line; without one they show different placeholders. */
  lemma IssueAndDownloadAgree(tx: Option<string>)
    ensures Present(tx) ==> IssuedHashLine(tx) == HashDisplay(tx)
    ensures !Present(tx) ==> IssuedHashLine(tx) != HashDisplay(tx)
  {
  }

  // ---------------------------------------------------------------------------
  // Payloads

  /** The stored certificate as the download route reads it. `issuedYear` is
      the year the issue route numbered it with (app.py:444), kept with the
      certificate in the corrected design; the route as written ignores it. It
      is not the year of the `created_at` column, which is taken in UTC while
      the issue route reads the local clock. */
  datatype Certificate = Certificate(
    id: int,
    recipientName: Value,
    data: Payload,
    blockchainHash: Option<string>,
    issuedYear: int)

  /** The six keys both routes put over the certificate's data. */
  const RouteKeys: set<string> :=
    {"institution_name", "recipient_name", "graduation_date", "cert_number", "duration", "blockchain_hash"}

  /** `dict(data)` with the six route keys assigned. */
  function WithRouteFields(data: Payload, institution: Value, recipient: Value, date: Value,
                           number: string, duration: Value, hash: string): (p: Payload)
    ensures p.Keys == data.Keys + RouteKeys
    ensures forall k | k in data && k !in RouteKeys :: p[k] == data[k]
    ensures p["institution_name"] == institution && p["recipient_name"] == recipient
    ensures p["graduation_date"] == date && p["cert_number"] == Str(number)
    ensures p["duration"] == duration && p["blockchain_hash"] == Str(hash)
  {
    data["institution_name" := institution]
        ["recipient_name" := recipient]
        ["graduation_date" := date]
        ["cert_number" := Str(number)]
        ["duration" := duration]
        ["blockchain_hash" := Str(hash)]
  }

  /** The payload of app.py `download_certificate_file`: the stored data with
      the institution name (or the stored one, or "Institution"), the recipient,
      the date (or `today`), the certificate number, the duration (or "N/A")
      and the displayed hash put over it. */
  function DownloadPayload(cert: Certificate, institution: Option<string>, year: int, today: string)
    : (p: Payload)
    ensures p.Keys == cert.data.Keys + RouteKeys
    ensures forall k | k in cert.data && k !in RouteKeys :: p[k] == cert.data[k]
    ensures p["cert_number"] == Str(CertNumber(year, cert.id))
    ensures p["blockchain_hash"] == Str(HashDisplay(cert.blockchainHash))
    ensures p["recipient_name"] == cert.recipientName
    ensures institution.Some? ==> p["institution_name"] == Str(institution.value)
    ensures institution.None? && "institution_name" in cert.data ==> p["institution_name"] == cert.data["institution_name"]
    ensures institution.None? && "institution_name" !in cert.data ==> p["institution_name"] == Str("Institution")
    ensures "graduation_date" in cert.data ==> p["graduation_date"] == cert.data["graduation_date"]
    ensures "graduation_date" !in cert.data ==> p["graduation_date"] == Str(today)
    ensures "duration" in cert.data ==> p["duration"] == cert.data["duration"]
    ensures "duration" !in cert.data ==> p["duration"] == Str("N/A")
  {
    var d := cert.data;
    WithRouteFields(d,
      if institution.Some? then Str(institution.value) else Get(d, "institution_name", Str("Institution")),
      cert.recipientName,
      Get(d, "graduation_date", Str(today)),
      CertNumber(year, cert.id),
      Get(d, "duration", Str("N/A")),
      HashDisplay(cert.blockchainHash))
  }

  /** The payload of app.py `create_certificate`: the request data with the
      institution name (or the request's own, `None` when it has none), the
      recipient, the date, the certificate number, the duration and the hash
      line. */
  function IssuePayload(data: Payload, id: int, institution: Option<string>, year: int, today: string, tx: Option<string>)
    : (p: Payload)
    ensures p.Keys == data.Keys + RouteKeys
    ensures forall k | k in data && k !in RouteKeys :: p[k] == data[k]
    ensures p["cert_number"] == Str(CertNumber(year, id))
    ensures p["blockchain_hash"] == Str(IssuedHashLine(tx))
    ensures p["recipient_name"] == Get(data, "recipient_name", Null)
    ensures institution.Some? ==> p["institution_name"] == Str(institution.value)
    ensures institution.None? && "institution_name" in data ==> p["institution_name"] == data["institution_name"]
    ensures institution.None? && "institution_name" !in data ==> p["institution_name"] == Null
    ensures "graduation_date" in data ==> p["graduation_date"] == data["graduation_date"]
    ensures "graduation_date" !in data ==> p["graduation_date"] == Str(today)
    ensures "duration" in data ==> p["duration"] == data["duration"]
    ensures "duration" !in data ==> p["duration"] == Str("N/A")
  {
    WithRouteFields(data,
      if institution.Some? then Str(institution.value) else Get(data, "institution_name", Null),
      Get(data, "recipient_name", Null),
      Get(data, "graduation_date", Str(today)),
      CertNumber(year, id),
      Get(data, "duration", Str("N/A")),
      IssuedHashLine(tx))
  }

  /** A downloaded diploma shows the route's values rather than the template's
      placeholders: its number reads back as (year, id), its hash line is the
      display of the stored hash, its duration is the stored one or "N/A", and
      its institution is the institution's name or, failing that, the stored
      one or "Institution". */
  lemma DownloadedDiplomaFields(cert: Certificate, institution: Option<string>, year: nat, today: string)
    requires cert.id >= 0
    ensures var f := DiplomaFields(DownloadPayload(cert, institution, year, today), today);
      && f.certNumber.Str?
      && ParseCertNumber(f.certNumber.s) == Some((year, cert.id as nat))
      && f.hash == Str(HashDisplay(cert.blockchainHash))
      && f.duration == Get(cert.data, "duration", Str("N/A"))
      && f.recipient == cert.recipientName
      && (institution.Some? ==> f.institution == Str(institution.value))
      && (institution.None? && "institution_name" !in cert.data ==> f.institution == Str("Institution"))
  {
    var p := DownloadPayload(cert, institution, year, today);
    var f := DiplomaFields(p, today);
    CertNumberRoundTrip(year, cert.id);
    assert f.certNumber == Str(CertNumber(year, cert.id));
  }

  /** Both routes compute the number from the clock's current year
      (app.py:444 and app.py:590). The certificate drawn at issue time and the
      one drawn at download time carry the same recipient and duration and,
      once a transaction hash is stored, the same hash line; they carry the
      same number exactly when the two years agree. */
  lemma IssueMatchesDownload(data: Payload, id: nat, institution: Option<string>,
                             issueYear: nat, downloadYear: nat, today: string, tx: Option<string>)
    ensures var issued := DiplomaFields(IssuePayload(data, id, institution, issueYear, today, tx), today);
      var cert := Certificate(id, Get(data, "recipient_name", Null), data, tx, issueYear);
      var later := DiplomaFields(DownloadPayload(cert, institution, downloadYear, today), today);
      && (issued.certNumber == later.certNumber <==> issueYear == downloadYear)
      && issued.recipient == later.recipient
      && issued.duration == later.duration
      && (Present(tx) ==> issued.hash == later.hash)
  {
    var issued := DiplomaFields(IssuePayload(data, id, institution, issueYear, today, tx), today);
    var cert := Certificate(id, Get(data, "recipient_name", Null), data, tx, issueYear);
    var later := DiplomaFields(DownloadPayload(cert, institution, downloadYear, today), today);
    if issued.certNumber == later.certNumber {
      CertNumberInjective(issueYear, id, downloadYear, id);
    }
  }

  /** A certificate issued in December 2025 and downloaded in January 2026
      gets a new number: the document no longer matches the one issued. */
  lemma NumberChangesAtNewYear(data: Payload, institution: Option<string>, today: string, tx: Option<string>)
    ensures var cert := Certificate(7, Get(data, "recipient_name", Null), data, tx, 2025);
      IssuePayload(data, 7, institution, 2025, today, tx)["cert_number"]
        != DownloadPayload(cert, institution, 2026, today)["cert_number"]
  {
    var cert := Certificate(7, Get(data, "recipient_name", Null), data, tx, 2025);
    var a := IssuePayload(data, 7, institution, 2025, today, tx)["cert_number"];
    var b := DownloadPayload(cert, institution, 2026, today)["cert_number"];
    if a == b {
      CertNumberInjective(2025, 7, 2026, 7);
    }
  }

  /** The download payload with the number taken from the certificate's own
      stored issue year instead of the clock. */
  function StoredDownloadPayload(cert: Certificate, institution: Option<string>, today: string): (p: Payload)
    ensures p.Keys == cert.data.Keys + RouteKeys
    ensures p["cert_number"] == Str(CertNumber(cert.issuedYear, cert.id))
    ensures forall k | k in p && k != "cert_number" ::
              forall year :: p[k] == DownloadPayload(cert, institution, year, today)[k]
  {
    DownloadPayload(cert, institution, cert.issuedYear, today)
  }

  /** With the number taken from the stored issue year, the certificate drawn at
      download time carries the issued number whatever the year it is drawn in,
      and only that certificate carries it. */
  lemma IssueMatchesStoredDownload(data: Payload, id: nat, institution: Option<string>,
                                   issueYear: nat, today: string, tx: Option<string>,
                                   other: Certificate)
    requires other.id >= 0 && other.issuedYear >= 0
    ensures var issued := DiplomaFields(IssuePayload(data, id, institution, issueYear, today, tx), today);
      var cert := Certificate(id, Get(data, "recipient_name", Null), data, tx, issueYear);
      && issued.certNumber == DiplomaFields(StoredDownloadPayload(cert, institution, today), today).certNumber
      && (var mine := DiplomaFields(StoredDownloadPayload(other, institution, today), today);
          mine.certNumber == issued.certNumber <==> other.id == id && other.issuedYear == issueYear)
  {
    var issued := DiplomaFields(IssuePayload(data, id, institution, issueYear, today, tx), today);
    var o := DiplomaFields(StoredDownloadPayload(other, institution, today), today);
    if o.certNumber == issued.certNumber {
      CertNumberInjective(other.issuedYear, other.id, issueYear, id);
    }
  }
}

=== FILE: common.dfy ===
/** Shared vocabulary: optional values, bytes, size units and the flattening
    of a sequence of chunks. */
module Common {

  /** A value that may be absent: a missing key in a request, a Python `None`. */
  datatype Option<+T> = None | Some(value: T) {

    /** The carried value, or `default` when absent (Python's `dict.get(key, default)`). */
    function GetOr(default: T): T {
      match this
      case Some(v) => v
      case None => default
    }
  }

  /** One octet of a file or of a wire message. */
  newtype byte = x: int | 0 <= x < 256

  const KiB: nat := 1024
  const GiB: nat := 1024 * 1024 * 1024

  function Min(a: int, b: int): int {
    if a <= b then a else b
  }

  /** The bytes of a chunk sequence laid end to end. */
  function Concat<T>(chunks: seq<seq<T>>): seq<T>
    decreases |chunks|
  {
    if |chunks| == 0 then [] else chunks[0] + Concat(chunks[1..])
  }

  /** Flattening distributes over concatenation of chunk sequences. */
  lemma {:induction false} ConcatAppend<T>(a: seq<seq<T>>, b: seq<seq<T>>)
    ensures Concat(a + b) == Concat(a) + Concat(b)
    decreases |a|
  {
    if |a| == 0 {
      assert a + b == b;
    } else {
      assert (a + b)[1..] == a[1..] + b;
      ConcatAppend(a[1..], b);
    }
  }

  /** Prepending one chunk prepends its bytes. */
  lemma ConcatCons<T>(c: seq<T>, rest: seq<seq<T>>)
    ensures Concat([c] + rest) == c + Concat(rest)
  {
    assert ([c] + rest)[1..] == rest;
  }
}

=== FILE: coordinator.dfy ===
/** The coordinator's registry (`NetworkServer`): storage-node membership,
    the file-to-node registry and the per-user file listing, with one pure
    transition per request type. The body of every handler of the source runs
    under one lock, so each is modelled as an atomic step
    `(state, request) -> (state, reply)`, whose reply is a snapshot.
    The wall clock (`time.time()`) and the generated node id (`uuid4`) are
    parameters. */
module Coordinator {
  import opened Common

  type NodeId = string
  type FileId = string
  type UserId = string

  /** Seconds of heartbeat silence after which the sweep marks a node offline. */
  const HeartbeatTimeout: real := 30.0

  datatype Status = Online | Offline

  /** One entry of the node registry. Timestamps are seconds since the epoch. */
  datatype NodeRecord = NodeRecord(
    nodeId: NodeId,
    ip: Option<string>,
    port: Option<int>,
    capacity: int,
    used: int,
    lastHeartbeat: real,
    status: Status)
  {
    /** Bytes still free according to the node's last report. */
    function Free(): int {
      capacity - used
    }
  }

  /** The metadata a gateway registers for an uploaded file. */
  datatype FileInfo = FileInfo(fileId: FileId, fileName: string, fileSize: int, uploadTime: real)

  /** The coordinator's memory. `nodes` keeps the registry's insertion order
      (the order in which a Python dict iterates), which decides ties in placement. */
  datatype State = State(
    nodes: seq<NodeRecord>,
    files: map<FileId, seq<NodeId>>,
    userFiles: map<UserId, seq<FileInfo>>)

  const Initial: State := State([], map[], map[])

  /** A dict has one value per key: no node id appears twice in the registry. */
  predicate UniqueIds(nodes: seq<NodeRecord>) {
    forall i, j | 0 <= i < |nodes| && 0 <= j < |nodes| && i != j :: nodes[i].nodeId != nodes[j].nodeId
  }

  predicate Valid(s: State) {
    UniqueIds(s.nodes)
  }

  /** The requests the coordinator recognises by their `type` field; `Unknown`
      carries any other type string. Absent optional fields are `None`. */
  datatype Request =
    | RegisterNode(nodeId: Option<NodeId>, ip: Option<string>, port: Option<int>,
                   capacity: Option<int>, used: Option<int>)
    | Heartbeat(hbNodeId: Option<NodeId>, reportedUsed: Option<int>)
    | GetAvailableNodes
    | RegisterFile(fileId: FileId, nodeIds: seq<NodeId>, userId: UserId, info: FileInfo)
    | GetFileLocations(locFileId: FileId)
    | UploadRequest(fileSize: int)
    | DownloadRequest(dlFileId: FileId)
    | GetUserFiles(filesOf: UserId)
    | DeleteFile(delFileId: FileId, delUserId: UserId)
    | Unknown(kind: string)

  datatype Reply =
    | NodeRegistered(id: NodeId, record: NodeRecord)
    | Done
    | NodeList(list: seq<NodeRecord>)
    | Placement(node: NodeRecord)
    | FileList(infos: seq<FileInfo>)
    | Error(message: string)

  const NodeNotFound: string := "Node not found"
  const NoStorageNodes: string := "No available storage nodes"
  const UnknownMessageType: string := "Unknown message type"

  // ---------------------------------------------------------------------------
  // Registry lookup

  /** The node ids of the registry, in order. */
  function Ids(nodes: seq<NodeRecord>): (ids: seq<NodeId>)
    ensures |ids| == |nodes|
    ensures forall i | 0 <= i < |nodes| :: ids[i] == nodes[i].nodeId
  {
    seq(|nodes|, i requires 0 <= i < |nodes| => nodes[i].nodeId)
  }

  /** Position of `id` in the registry: the first record carrying it. */
  function IndexOf(nodes: seq<NodeRecord>, id: NodeId): (r: Option<nat>)
    ensures r.Some? ==> r.value < |nodes| && nodes[r.value].nodeId == id
    ensures r.Some? ==> forall j | 0 <= j < r.value :: nodes[j].nodeId != id
    ensures r.None? <==> id !in Ids(nodes)
    decreases |nodes|
  {
    if |nodes| == 0 then None
    else if nodes[0].nodeId == id then Some(0)
    else
      match IndexOf(nodes[1..], id)
      case None =>
        assert Ids(nodes) == [nodes[0].nodeId] + Ids(nodes[1..]);
        None
      case Some(k) => Some(k + 1)
  }

  /** `self.nodes.get(id)`. */
  function Lookup(nodes: seq<NodeRecord>, id: NodeId): (r: Option<NodeRecord>)
    ensures r.Some? <==> id in Ids(nodes)
    ensures r.Some? ==> r.value in nodes && r.value.nodeId == id
  {
    match IndexOf(nodes, id)
    case Some(i) => Some(nodes[i])
    case None => None
  }

  /** In a registry without duplicate ids, the record at position `i` is the one
      `Lookup` finds for its id. */
  lemma LookupAt(nodes: seq<NodeRecord>, i: nat)
    requires UniqueIds(nodes) && i < |nodes|
    ensures Lookup(nodes, nodes[i].nodeId) == Some(nodes[i])
  {
    var k := IndexOf(nodes, nodes[i].nodeId);
    assert nodes[i].nodeId in Ids(nodes);
  }

  // ---------------------------------------------------------------------------
  // register_node

  /** The record stored for a registration at time `now`; the capacity and the
      used bytes default to 0. */
  function Registration(id: NodeId, ip: Option<string>, port: Option<int>,
                        capacity: Option<int>, used: Option<int>, now: real): NodeRecord
  {
    NodeRecord(id, ip, port, capacity.GetOr(0), used.GetOr(0), now, Online)
  }

  /** `self.nodes[node_id] = info`: replaces the record of a known id in place,
      appends a record for a new one. */
  function Store(nodes: seq<NodeRecord>, rec: NodeRecord): (r: seq<NodeRecord>)
    ensures Lookup(r, rec.nodeId) == Some(rec)
    ensures rec.nodeId in Ids(nodes) ==> |r| == |nodes|
    ensures rec.nodeId !in Ids(nodes) ==> r == nodes + [rec]
    ensures forall i | 0 <= i < |nodes| && nodes[i].nodeId != rec.nodeId :: r[i] == nodes[i]
    ensures UniqueIds(nodes) ==> UniqueIds(r)
    ensures forall id | id != rec.nodeId :: Lookup(r, id) == Lookup(nodes, id)
  {
    match IndexOf(nodes, rec.nodeId)
    case Some(i) =>
      ReplaceLookups(nodes, i, rec);
      ReplaceUnique(nodes, i, rec);
      nodes[i := rec]
    case None =>
      AppendLookups(nodes, rec);
      AppendUnique(nodes, rec);
      nodes + [rec]
  }

  lemma ReplaceLookups(nodes: seq<NodeRecord>, i: nat, rec: NodeRecord)
    requires IndexOf(nodes, rec.nodeId) == Some(i)
    ensures Lookup(nodes[i := rec], rec.nodeId) == Some(rec)
    ensures forall id | id != rec.nodeId :: Lookup(nodes[i := rec], id) == Lookup(nodes, id)
  {
    ReplaceFindsSelf(nodes, i, rec);
    forall id | id != rec.nodeId ensures Lookup(nodes[i := rec], id) == Lookup(nodes, id) {
      IndexOfUpdate(nodes, i, rec, id);
      match IndexOf(nodes, id)
      case Some(j) => assert j != i;
      case None =>
    }
  }

  lemma ReplaceFindsSelf(nodes: seq<NodeRecord>, i: nat, rec: NodeRecord)
    requires IndexOf(nodes, rec.nodeId) == Some(i)
    ensures IndexOf(nodes[i := rec], rec.nodeId) == Some(i)
  {
    var r := nodes[i := rec];
    assert r[i].nodeId == rec.nodeId;
    assert rec.nodeId in Ids(r) by { assert Ids(r)[i] == rec.nodeId; }
    forall j | 0 <= j < i ensures r[j].nodeId != rec.nodeId {
      assert r[j] == nodes[j];
    }
  }

  lemma ReplaceUnique(nodes: seq<NodeRecord>, i: nat, rec: NodeRecord)
    requires i < |nodes| && nodes[i].nodeId == rec.nodeId
    ensures UniqueIds(nodes) ==> UniqueIds(nodes[i := rec])
  {
    assert Ids(nodes[i := rec]) == Ids(nodes);
  }

  lemma AppendLookups(nodes: seq<NodeRecord>, rec: NodeRecord)
    requires IndexOf(nodes, rec.nodeId) == None
    ensures Lookup(nodes + [rec], rec.nodeId) == Some(rec)
    ensures forall id | id != rec.nodeId :: Lookup(nodes + [rec], id) == Lookup(nodes, id)
  {
    var r := nodes + [rec];
    forall id | id != rec.nodeId ensures IndexOf(r, id) == IndexOf(nodes, id) {
      IndexOfAppend(nodes, rec, id);
    }
    assert rec.nodeId in Ids(r) by { assert Ids(r)[|nodes|] == rec.nodeId; }
  }

  lemma AppendUnique(nodes: seq<NodeRecord>, rec: NodeRecord)
    requires rec.nodeId !in Ids(nodes)
    ensures UniqueIds(nodes) ==> UniqueIds(nodes + [rec])
  {
    assert forall j | 0 <= j < |nodes| :: nodes[j].nodeId == Ids(nodes)[j];
  }

  lemma {:induction false} IndexOfUpdate(nodes: seq<NodeRecord>, i: nat, rec: NodeRecord, id: NodeId)
    requires i < |nodes| && nodes[i].nodeId == rec.nodeId && id != rec.nodeId
    ensures IndexOf(nodes[i := rec], id) == IndexOf(nodes, id)
    decreases |nodes|
  {
    var r := nodes[i := rec];
    if nodes[0].nodeId == id {
      assert r[0] == nodes[0];
    } else if i == 0 {
      assert r[1..] == nodes[1..];
    } else {
      assert r[0] == nodes[0];
      assert r[1..] == nodes[1..][i - 1 := rec];
      IndexOfUpdate(nodes[1..], i - 1, rec, id);
    }
  }

  lemma {:induction false} IndexOfAppend(nodes: seq<NodeRecord>, rec: NodeRecord, id: NodeId)
    requires id != rec.nodeId
    ensures IndexOf(nodes + [rec], id) == IndexOf(nodes, id)
    decreases |nodes|
  {
    if |nodes| > 0 && nodes[0].nodeId != id {
      assert (nodes + [rec])[1..] == nodes[1..] + [rec];
      IndexOfAppend(nodes[1..], rec, id);
    }
  }

  /** network_server.py `_register_node`: store an online record stamped `now`
      under the supplied id, or under `freshId` when the request has none. */
  function RegisterNodeStep(s: State, nodeId: Option<NodeId>, ip: Option<string>, port: Option<int>,
                            capacity: Option<int>, used: Option<int>, now: real, freshId: NodeId)
    : (out: (State, Reply))
    ensures out.1.NodeRegistered? && out.1.id == nodeId.GetOr(freshId)
    ensures Lookup(out.0.nodes, out.1.id) == Some(out.1.record)
    ensures var rec := out.1.record;
      && rec.nodeId == out.1.id && rec.status == Online && rec.lastHeartbeat == now
      && rec.capacity == capacity.GetOr(0) && rec.used == used.GetOr(0)
      && rec.ip == ip && rec.port == port
    ensures forall id | id != nodeId.GetOr(freshId) :: Lookup(out.0.nodes, id) == Lookup(s.nodes, id)
    ensures out.0.files == s.files && out.0.userFiles == s.userFiles
    ensures Valid(s) ==> Valid(out.0)
  {
    var id := nodeId.GetOr(freshId);
    var rec := Registration(id, ip, port, capacity, used, now);
    (s.(nodes := Store(s.nodes, rec)), NodeRegistered(id, rec))
  }

  // ---------------------------------------------------------------------------
  // heartbeat

  /** What a heartbeat does to a known node's record. */
  function Refresh(n: NodeRecord, used: Option<int>, now: real): NodeRecord {
    n.(lastHeartbeat := now, used := used.GetOr(0), status := Online)
  }

  /** network_server.py `_handle_heartbeat`. */
  function HeartbeatStep(s: State, nodeId: Option<NodeId>, used: Option<int>, now: real): (out: (State, Reply))
    requires Valid(s)
    ensures (nodeId.None? || nodeId.value !in Ids(s.nodes)) <==> out.1 == Error(NodeNotFound)
    ensures out.1.Error? ==> out.0 == s
    ensures out.1 == Done || out.1.Error?
    ensures out.1 == Done ==>
      && |out.0.nodes| == |s.nodes|
      && forall i | 0 <= i < |s.nodes| ::
           out.0.nodes[i] == if s.nodes[i].nodeId == nodeId.value then Refresh(s.nodes[i], used, now) else s.nodes[i]
    ensures out.0.files == s.files && out.0.userFiles == s.userFiles
    ensures Valid(out.0)
  {
    if nodeId.None? then (s, Error(NodeNotFound))
    else
      match IndexOf(s.nodes, nodeId.value)
      case None => (s, Error(NodeNotFound))
      case Some(i) =>
        var nodes := s.nodes[i := Refresh(s.nodes[i], used, now)];
        assert Ids(nodes) == Ids(s.nodes);
        (s.(nodes := nodes), Done)
  }

  // ---------------------------------------------------------------------------
  // get_available_nodes

  /** The online records, in registry order. */
  function OnlineNodes(nodes: seq<NodeRecord>): (r: seq<NodeRecord>)
    ensures |r| <= |nodes|
    ensures forall n :: n in r <==> n in nodes && n.status == Online
    decreases |nodes|
  {
    if |nodes| == 0 then []
    else
      var rest := OnlineNodes(nodes[1..]);
      assert forall n | n in nodes :: n == nodes[0] || n in nodes[1..];
      if nodes[0].status == Online then [nodes[0]] + rest else rest
  }

  // ---------------------------------------------------------------------------
  // get_file_locations / download_request

  /** For each listed id, in order, the record of that node when it is known
      and online; unknown and offline ids are skipped, repeated ids repeat. */
  function Locations(nodes: seq<NodeRecord>, ids: seq<NodeId>): (r: seq<NodeRecord>)
    ensures |r| <= |ids|
    ensures forall n | n in r :: n in nodes && n.status == Online && n.nodeId in ids
    decreases |ids|
  {
    if |ids| == 0 then []
    else
      var rest := Locations(nodes, ids[1..]);
      match Lookup(nodes, ids[0])
      case Some(n) => if n.status == Online then [n] + rest else rest
      case None => rest
  }

  function FileNodeIds(s: State, fileId: FileId): seq<NodeId> {
    if fileId in s.files then s.files[fileId] else []
  }

  /** network_server.py `_get_file_locations` (and `_handle_download_request`,
      which forwards to it). */
  function FileLocations(s: State, fileId: FileId): (r: seq<NodeRecord>)
    requires Valid(s)
    ensures fileId !in s.files ==> r == []
    ensures forall n | n in r :: n in s.nodes && n.status == Online && n.nodeId in FileNodeIds(s, fileId)
    ensures forall i | 0 <= i < |s.nodes| && s.nodes[i].status == Online && s.nodes[i].nodeId in FileNodeIds(s, fileId) ::
              s.nodes[i] in r
  {
    var ids := FileNodeIds(s, fileId);
    forall i | 0 <= i < |s.nodes| && s.nodes[i].status == Online && s.nodes[i].nodeId in ids
      ensures s.nodes[i] in Locations(s.nodes, ids)
    {
      LookupAt(s.nodes, i);
      LocationsComplete(s.nodes, ids, s.nodes[i]);
    }
    Locations(s.nodes, ids)
  }

  lemma {:induction false} LocationsComplete(nodes: seq<NodeRecord>, ids: seq<NodeId>, n: NodeRecord)
    requires n.nodeId in ids && Lookup(nodes, n.nodeId) == Some(n) && n.status == Online
    ensures n in Locations(nodes, ids)
    decreases |ids|
  {
    if ids[0] != n.nodeId {
      LocationsComplete(nodes, ids[1..], n);
    }
  }

  // ---------------------------------------------------------------------------
  // upload_request: placement

  /** A node that may receive a file of `size` bytes. */
  predicate Suitable(n: NodeRecord, size: int) {
    n.status == Online && n.Free() >= size
  }

  /** Position `i` is the placement the source promises: a suitable node, none
      with strictly more free space, and no equally free suitable node before it. */
  predicate IsBestPlacement(nodes: seq<NodeRecord>, size: int, i: nat) {
    && i < |nodes|
    && Suitable(nodes[i], size)
    && (forall j | 0 <= j < |nodes| && Suitable(nodes[j], size) :: nodes[j].Free() <= nodes[i].Free())
    && (forall j | 0 <= j < i && Suitable(nodes[j], size) :: nodes[j].Free() < nodes[i].Free())
  }

  /** Python's `max(suitable, key=free)` over the registry in order: a later node
      replaces the current best only when it is strictly freer. */
  function BestIndex(nodes: seq<NodeRecord>, size: int): (r: Option<nat>)
    ensures r.Some? ==> IsBestPlacement(nodes, size, r.value)
    ensures r.None? <==> forall j | 0 <= j < |nodes| :: !Suitable(nodes[j], size)
    decreases |nodes|
  {
    if |nodes| == 0 then None
    else
      var last := |nodes| - 1;
      var prev := BestIndex(nodes[..last], size);
      if !Suitable(nodes[last], size) then prev
      else if prev.None? || nodes[prev.value].Free() < nodes[last].Free() then Some(last)
      else prev
  }

  /** network_server.py `_handle_upload_request`. It never changes the state. */
  function UploadRequestReply(s: State, size: int): (r: Reply)
    ensures r.Error? <==> forall n | n in s.nodes :: !Suitable(n, size)
    ensures r.Error? || r.Placement?
    ensures r.Error? ==> r == Error(NoStorageNodes)
    ensures r.Placement? ==> exists i: nat :: IsBestPlacement(s.nodes, size, i) && r.node == s.nodes[i]
  {
    match BestIndex(s.nodes, size)
    case Some(i) => Placement(s.nodes[i])
    case None => Error(NoStorageNodes)
  }

  // ---------------------------------------------------------------------------
  // register_file, get_user_files, delete_file

  /** network_server.py `_get_user_files`: the user's list, or an empty one
      for a user who never registered a file. */
  function UserFileList(s: State, userId: UserId): (r: seq<FileInfo>)
    ensures userId !in s.userFiles ==> r == []
    ensures userId in s.userFiles ==> r == s.userFiles[userId]
  {
    if userId in s.userFiles then s.userFiles[userId] else []
  }

  /** network_server.py `_register_file`: extends the file's node list (no
      deduplication) and appends the metadata to the user's list. */
  function RegisterFileStep(s: State, fileId: FileId, nodeIds: seq<NodeId>, userId: UserId, info: FileInfo)
    : (s': State)
    ensures s'.nodes == s.nodes
    ensures s'.files.Keys == s.files.Keys + {fileId}
    ensures FileNodeIds(s', fileId) == FileNodeIds(s, fileId) + nodeIds
    ensures forall f | f in s.files && f != fileId :: s'.files[f] == s.files[f]
    ensures s'.userFiles.Keys == s.userFiles.Keys + {userId}
    ensures UserFileList(s', userId) == UserFileList(s, userId) + [info]
    ensures forall u | u in s.userFiles && u != userId :: s'.userFiles[u] == s.userFiles[u]
  {
    s.(files := s.files[fileId := FileNodeIds(s, fileId) + nodeIds],
       userFiles := s.userFiles[userId := UserFileList(s, userId) + [info]])
  }

  /** The entries of a list that do not describe `fileId`, in their order. */
  function WithoutFile(infos: seq<FileInfo>, fileId: FileId): (r: seq<FileInfo>)
    ensures |r| <= |infos|
    ensures forall f :: f in r <==> f in infos && f.fileId != fileId
    decreases |infos|
  {
    if |infos| == 0 then []
    else
      var rest := WithoutFile(infos[1..], fileId);
      assert forall f | f in infos :: f == infos[0] || f in infos[1..];
      if infos[0].fileId != fileId then [infos[0]] + rest else rest
  }

  /** network_server.py `_delete_file`: drops the file's registry entry and
      filters it out of that user's list. No storage node is told. */
  function DeleteFileStep(s: State, fileId: FileId, userId: UserId): (s': State)
    ensures s'.nodes == s.nodes
    ensures s'.files.Keys == s.files.Keys - {fileId}
    ensures forall f | f in s'.files :: s'.files[f] == s.files[f]
    ensures s'.userFiles.Keys == s.userFiles.Keys
    ensures forall f | f in UserFileList(s', userId) :: f.fileId != fileId
    ensures forall f :: f in UserFileList(s', userId) <==> f in UserFileList(s, userId) && f.fileId != fileId
    ensures UserFileList(s', userId) == WithoutFile(UserFileList(s, userId), fileId)
    ensures forall u | u in s.userFiles && u != userId :: s'.userFiles[u] == s.userFiles[u]
  {
    s.(files := s.files - {fileId},
       userFiles := if userId in s.userFiles then s.userFiles[userId := WithoutFile(s.userFiles[userId], fileId)]
                    else s.userFiles)
  }

  // ---------------------------------------------------------------------------
  // the liveness sweep

  /** More than `HeartbeatTimeout` seconds have passed since the last heartbeat. */
  predicate Stale(n: NodeRecord, now: real) {
    now - n.lastHeartbeat > HeartbeatTimeout
  }

  /** One pass of `_health_check_loop` at time `now`: every online node whose
      heartbeat is stale goes offline; nothing else changes. */
  function Sweep(s: State, now: real): (s': State)
    ensures |s'.nodes| == |s.nodes|
    ensures forall i | 0 <= i < |s.nodes| :: s'.nodes[i] == s.nodes[i].(status := s'.nodes[i].status)
    ensures forall i | 0 <= i < |s.nodes| ::
              (s'.nodes[i].status != s.nodes[i].status) <==> (s.nodes[i].status == Online && Stale(s.nodes[i], now))
    ensures forall i | 0 <= i < |s.nodes| :: s'.nodes[i].status == Online ==> s.nodes[i].status == Online
    ensures s'.files == s.files && s'.userFiles == s.userFiles
    ensures Valid(s) ==> Valid(s')
  {
    var nodes := seq(|s.nodes|, i requires 0 <= i < |s.nodes| =>
      if s.nodes[i].status == Online && Stale(s.nodes[i], now) then s.nodes[i].(status := Offline) else s.nodes[i]);
    assert Ids(nodes) == Ids(s.nodes);
    s.(nodes := nodes)
  }

  // ---------------------------------------------------------------------------
  // dispatch

  /** network_server.py `_process_message`: routes a request by its type. */
  function Process(s: State, req: Request, now: real, freshId: NodeId): (out: (State, Reply))
    requires Valid(s)
    ensures Valid(out.0)
    ensures req.Unknown? ==> out == (s, Error(UnknownMessageType))
    ensures (req.GetAvailableNodes? || req.GetFileLocations? || req.UploadRequest? ||
             req.DownloadRequest? || req.GetUserFiles?) ==> out.0 == s
  {
    match req
    case RegisterNode(id, ip, port, cap, used) => RegisterNodeStep(s, id, ip, port, cap, used, now, freshId)
    case Heartbeat(id, used) => HeartbeatStep(s, id, used, now)
    case GetAvailableNodes => (s, NodeList(OnlineNodes(s.nodes)))
    case RegisterFile(f, ids, u, info) => (RegisterFileStep(s, f, ids, u, info), Done)
    case GetFileLocations(f) => (s, NodeList(FileLocations(s, f)))
    case UploadRequest(size) => (s, UploadRequestReply(s, size))
    case DownloadRequest(f) => (s, NodeList(FileLocations(s, f)))
    case GetUserFiles(u) => (s, FileList(UserFileList(s, u)))
    case DeleteFile(f, u) => (DeleteFileStep(s, f, u), Done)
    case Unknown(_) => (s, Error(UnknownMessageType))
  }
}

=== FILE: coordinator_proofs.dfy ===
/** Properties of the coordinator that relate several of its steps: placement
    is determined by its description, file registration and deletion act on
    locations as expected, deletion and the sweep are idempotent, and the sweep
    keeps stale nodes out of every listing and placement. */
module CoordinatorProofs {
  import opened Common
  import opened Coordinator

  /** The placement the registry yields is exactly the one described by
      `IsBestPlacement`: there is at most one such position. */
  lemma PlacementCharacterised(nodes: seq<NodeRecord>, size: int, i: nat)
    ensures BestIndex(nodes, size) == Some(i) <==> IsBestPlacement(nodes, size, i)
  {
  }

  /** Two online nodes, A with 10 bytes of capacity of which 2 are used and B
      with 10 of which 8 are used: a 5-byte file goes to A, the only one with
      room, and so does a 1-byte file, because A has more free space. */
  lemma PlacementExample()
    ensures var a := NodeRecord("A", None, None, 10, 2, 0.0, Online);
      var b := NodeRecord("B", None, None, 10, 8, 0.0, Online);
      && UploadRequestReply(State([a, b], map[], map[]), 5) == Placement(a)
      && UploadRequestReply(State([a, b], map[], map[]), 1) == Placement(a)
      && UploadRequestReply(State([b, a], map[], map[]), 1) == Placement(a)
      && UploadRequestReply(State([a, b], map[], map[]), 9) == Error(NoStorageNodes)
  {
    var a := NodeRecord("A", None, None, 10, 2, 0.0, Online);
    var b := NodeRecord("B", None, None, 10, 8, 0.0, Online);
    assert [a, b][..1] == [a] && [b, a][..1] == [b];
    assert [a][..0] == [] && [b][..0] == [];
    assert BestIndex([a], 5) == Some(0) && BestIndex([a, b], 5) == Some(0);
    assert BestIndex([a], 1) == Some(0) && BestIndex([a, b], 1) == Some(0);
    assert BestIndex([b], 1) == Some(0) && BestIndex([b, a], 1) == Some(1);
    assert BestIndex([a], 9) == None && BestIndex([a, b], 9) == None;
  }

  /** Locations of a concatenated id list are the concatenated locations. */
  lemma {:induction false} LocationsAppend(nodes: seq<NodeRecord>, a: seq<NodeId>, b: seq<NodeId>)
    ensures Locations(nodes, a + b) == Locations(nodes, a) + Locations(nodes, b)
    decreases |a|
  {
    if |a| > 0 {
      assert (a + b)[0] == a[0];
      assert (a + b)[1..] == a[1..] + b;
      LocationsAppend(nodes, a[1..], b);
    } else {
      assert a + b == b;
    }
  }

  /** A node id listed twice for a file yields its record twice. */
  lemma LocationsRepeat(nodes: seq<NodeRecord>, id: NodeId)
    requires Lookup(nodes, id).Some? && Lookup(nodes, id).value.status == Online
    ensures Locations(nodes, [id, id]) == [Lookup(nodes, id).value, Lookup(nodes, id).value]
  {
    assert [id, id][1..] == [id];
    assert [id][1..] == [];
  }

  /** `get_available_nodes` keeps a single record exactly when it is online ... */
  lemma OnlineNodesOne(n: NodeRecord)
    ensures OnlineNodes([n]) == if n.status == Online then [n] else []
  {
    assert [n][1..] == [];
  }

  /** ... and lists a concatenated registry part by part, in registry order. */
  lemma {:induction false} OnlineNodesAppend(a: seq<NodeRecord>, b: seq<NodeRecord>)
    ensures OnlineNodes(a + b) == OnlineNodes(a) + OnlineNodes(b)
    decreases |a|
  {
    if |a| > 0 {
      assert (a + b)[0] == a[0];
      assert (a + b)[1..] == a[1..] + b;
      OnlineNodesAppend(a[1..], b);
    } else {
      assert a + b == b;
    }
  }

  /** After `register_file`, the file's locations are the old ones followed by
      the locations of the newly listed nodes. */
  lemma RegisterFileExtendsLocations(s: State, f: FileId, ids: seq<NodeId>, u: UserId, info: FileInfo)
    requires Valid(s)
    ensures Valid(RegisterFileStep(s, f, ids, u, info))
    ensures FileLocations(RegisterFileStep(s, f, ids, u, info), f) == FileLocations(s, f) + Locations(s.nodes, ids)
  {
    LocationsAppend(s.nodes, FileNodeIds(s, f), ids);
  }

  /** After `delete_file` the file has no locations and is not in the user's list. */
  lemma DeleteFileForgets(s: State, f: FileId, u: UserId)
    requires Valid(s)
    ensures Valid(DeleteFileStep(s, f, u))
    ensures FileLocations(DeleteFileStep(s, f, u), f) == []
    ensures forall info | info in UserFileList(DeleteFileStep(s, f, u), u) :: info.fileId != f
  {
  }

  /** Filtering out a file twice is filtering it out once. */
  lemma {:induction false} WithoutFileIdempotent(infos: seq<FileInfo>, f: FileId)
    ensures WithoutFile(WithoutFile(infos, f), f) == WithoutFile(infos, f)
    decreases |infos|
  {
    if |infos| > 0 {
      WithoutFileIdempotent(infos[1..], f);
      if infos[0].fileId != f {
        assert ([infos[0]] + WithoutFile(infos[1..], f))[1..] == WithoutFile(infos[1..], f);
      }
    }
  }

  /** The filter works entry by entry: one entry is kept exactly when it
      describes another file ... */
  lemma WithoutFileOne(info: FileInfo, f: FileId)
    ensures WithoutFile([info], f) == if info.fileId != f then [info] else []
  {
    assert [info][1..] == [];
  }

  /** ... and filtering a concatenation filters each part in place, so the
      kept entries keep their order. */
  lemma {:induction false} WithoutFileAppend(a: seq<FileInfo>, b: seq<FileInfo>, f: FileId)
    ensures WithoutFile(a + b, f) == WithoutFile(a, f) + WithoutFile(b, f)
    decreases |a|
  {
    if |a| > 0 {
      assert (a + b)[0] == a[0];
      assert (a + b)[1..] == a[1..] + b;
      WithoutFileAppend(a[1..], b, f);
    } else {
      assert a + b == b;
    }
  }

  /** Registering files for a user, one after another. */
  function RegisterAll(s: State, u: UserId, regs: seq<(FileId, seq<NodeId>, FileInfo)>): State
    decreases |regs|
  {
    if |regs| == 0 then s
    else RegisterAll(RegisterFileStep(s, regs[0].0, regs[0].1, u, regs[0].2), u, regs[1..])
  }

  /** The metadata of a sequence of registrations, in order. */
  function Infos(regs: seq<(FileId, seq<NodeId>, FileInfo)>): (r: seq<FileInfo>)
    ensures |r| == |regs|
    ensures forall k | 0 <= k < |regs| :: r[k] == regs[k].2
  {
    seq(|regs|, k requires 0 <= k < |regs| => regs[k].2)
  }

  /** `get_user_files` lists what was registered for the user, in the order of
      registration, after whatever the user had before. */
  lemma {:induction false} UserFilesInOrder(s: State, u: UserId, regs: seq<(FileId, seq<NodeId>, FileInfo)>)
    ensures UserFileList(RegisterAll(s, u, regs), u) == UserFileList(s, u) + Infos(regs)
    decreases |regs|
  {
    if |regs| > 0 {
      var s1 := RegisterFileStep(s, regs[0].0, regs[0].1, u, regs[0].2);
      assert RegisterAll(s, u, regs) == RegisterAll(s1, u, regs[1..]);
      assert UserFileList(s1, u) == UserFileList(s, u) + [regs[0].2];
      UserFilesInOrder(s1, u, regs[1..]);
      assert Infos(regs) == [regs[0].2] + Infos(regs[1..]);
      assert (UserFileList(s, u) + [regs[0].2]) + Infos(regs[1..]) == UserFileList(s, u) + Infos(regs);
    }
  }

  /** Deleting a file twice leaves the same state as deleting it once. */
  lemma DeleteFileIdempotent(s: State, f: FileId, u: UserId)
    ensures DeleteFileStep(DeleteFileStep(s, f, u), f, u) == DeleteFileStep(s, f, u)
  {
    if u in s.userFiles {
      WithoutFileIdempotent(s.userFiles[u], f);
    }
    assert (s.files - {f}) - {f} == s.files - {f};
  }

  /** A second sweep at the same instant changes nothing. */
  lemma SweepIdempotent(s: State, now: real)
    ensures Sweep(Sweep(s, now), now) == Sweep(s, now)
  {
    var s1 := Sweep(s, now);
    var s2 := Sweep(s1, now);
    assert forall i | 0 <= i < |s1.nodes| :: s2.nodes[i] == s1.nodes[i];
  }

  /** Right after a sweep at `now`, no listed node has a heartbeat older than
      the timeout, and no placement picks such a node. */
  lemma SweepExcludesStale(s: State, now: real, size: int)
    requires Valid(s)
    ensures forall n | n in OnlineNodes(Sweep(s, now).nodes) :: !Stale(n, now)
    ensures var r := UploadRequestReply(Sweep(s, now), size);
      r.Placement? ==> !Stale(r.node, now)
  {
    var s' := Sweep(s, now);
    forall n | n in OnlineNodes(s'.nodes) ensures !Stale(n, now) {
      var i :| 0 <= i < |s'.nodes| && s'.nodes[i] == n;
      assert s'.nodes[i].lastHeartbeat == s.nodes[i].lastHeartbeat;
    }
    var r := UploadRequestReply(s', size);
    if r.Placement? {
      var i: nat :| IsBestPlacement(s'.nodes, size, i) && r.node == s'.nodes[i];
      assert s'.nodes[i] in OnlineNodes(s'.nodes);
    }
  }

  /** A node stays online through sweeps for the timeout after a heartbeat, and
      the first sweep later than that takes it offline. */
  lemma HeartbeatThenSweep(s: State, id: NodeId, used: Option<int>, now: real, later: real)
    requires Valid(s) && id in Ids(s.nodes)
    ensures var s1 := HeartbeatStep(s, Some(id), used, now).0;
      var n := Lookup(s1.nodes, id).value;
      && n in OnlineNodes(s1.nodes)
      && n.lastHeartbeat == now
      && (later - now <= HeartbeatTimeout ==> n in OnlineNodes(Sweep(s1, later).nodes))
      && (later - now > HeartbeatTimeout ==>
            Lookup(Sweep(s1, later).nodes, id) == Some(n.(status := Offline)))
  {
    var s1 := HeartbeatStep(s, Some(id), used, now).0;
    var i := IndexOf(s.nodes, id).value;
    LookupAt(s1.nodes, i);
    var s2 := Sweep(s1, later);
    LookupAt(s2.nodes, i);
  }

  /** A sweep never takes a node out of the registry and never brings one online. */
  lemma SweepKeepsRecords(s: State, now: real, id: NodeId)
    requires Valid(s)
    ensures id in Ids(Sweep(s, now).nodes) <==> id in Ids(s.nodes)
    ensures forall n | n in OnlineNodes(Sweep(s, now).nodes) :: n in OnlineNodes(s.nodes)
  {
    var s' := Sweep(s, now);
    assert Ids(s'.nodes) == Ids(s.nodes);
    forall n | n in OnlineNodes(s'.nodes) ensures n in OnlineNodes(s.nodes) {
      var i :| 0 <= i < |s'.nodes| && s'.nodes[i] == n;
      assert s.nodes[i] == n;
    }
  }
}

=== FILE: pdf_fields.dfy ===
/** The text logic of the certificate PDF templates (pdf_generator.py): which
    value each field shows, the competency list of a certification, the grid
    cell of each competency and the validity line of a badge. Drawing is not
    modelled; a template is reduced to the strings it would draw. */
module PdfFields {
  import opened Common
  import opened Text

  /** A JSON value as it reaches a template through the payload dictionary. */
  datatype Value =
    | Str(s: string)
    | Int(i: int)
    | Bool(b: bool)
    | Null

  type Payload = map<string, Value>

  /** Python's `str(v)`. */
  function PyStr(v: Value): (r: string)
    ensures v.Str? ==> r == v.s
    ensures v.Int? && v.i >= 0 ==> (forall k | 0 <= k < |r| :: IsDigit(r[k])) && ParseNat(r) == v.i
  {
    match v
    case Str(s) => s
    case Int(i) => (ParseNatToString(if i >= 0 then i else 0); IntToString(i))
    case Bool(b) => if b then "True" else "False"
    case Null => "None"
  }

  /** Python's truth value of `v`. */
  predicate Truthy(v: Value) {
    match v
    case Str(s) => |s| > 0
    case Int(i) => i != 0
    case Bool(b) => b
    case Null => false
  }

  /** `data.get(key, default)`. */
  function Get(data: Payload, key: string, default: Value): (v: Value)
    ensures key in data ==> v == data[key]
    ensures key !in data ==> v == default
  {
    if key in data then data[key] else default
  }

  // ---------------------------------------------------------------------------
  // Fields of the three templates

  const DiplomaRecipient: string := "[PRÉNOM NOM DE L'ETUDIANT]"
  const DiplomaDomain: string := "[DOMAINE/SPÉCIALITÉ]"
  const DiplomaMention: string := "[MENTION]"
  const InstitutionPlaceholder: string := "[NOM DE VOTRE INSTITUTION]"
  const DiplomaCertNumber: string := "[CERT-2025-XXXXX]"
  const DiplomaDuration: string := "[X crédits/heures]"
  const HashPlaceholder: string := "0x..."
  const CertificationRecipient: string := "[PRÉNOM NOM DU CANDIDAT]"
  const CertificationDomain: string := "[DOMAINE DE COMPÉTENCE PRINCIPAL]"
  const CertificationNumber: string := "Certificat Blockchain #2025-XXXXX"
  const BadgeRecipient: string := "[PRÉNOM NOM DU TITULAIRE]"
  const BadgeCompetence: string := "[COMPÉTENCE SPÉCIFIQUE]"
  const BadgeLevel: string := "Intermédiaire"

  datatype Diploma = Diploma(
    recipient: Value, domain: Value, mention: Value, graduationDate: Value,
    institution: Value, certNumber: Value, duration: Value, hash: Value)

  /** pdf_generator.py `create_diploma_pdf`: each field is the payload's value
      when the key is present and the template's placeholder otherwise; the
      date defaults to `today`. */
  function DiplomaFields(data: Payload, today: string): (d: Diploma)
    ensures d.recipient == (if "recipient_name" in data then data["recipient_name"] else Str(DiplomaRecipient))
    ensures d.domain == (if "domain" in data then data["domain"] else Str(DiplomaDomain))
    ensures d.mention == (if "mention" in data then data["mention"] else Str(DiplomaMention))
    ensures d.graduationDate == (if "graduation_date" in data then data["graduation_date"] else Str(today))
    ensures d.institution == (if "institution_name" in data then data["institution_name"] else Str(InstitutionPlaceholder))
    ensures d.certNumber == (if "cert_number" in data then data["cert_number"] else Str(DiplomaCertNumber))
    ensures d.duration == (if "duration" in data then data["duration"] else Str(DiplomaDuration))
    ensures d.hash == (if "blockchain_hash" in data then data["blockchain_hash"] else Str(HashPlaceholder))
  {
    Diploma(
      Get(data, "recipient_name", Str(DiplomaRecipient)),
      Get(data, "domain", Str(DiplomaDomain)),
      Get(data, "mention", Str(DiplomaMention)),
      Get(data, "graduation_date", Str(today)),
      Get(data, "institution_name", Str(InstitutionPlaceholder)),
      Get(data, "cert_number", Str(DiplomaCertNumber)),
      Get(data, "duration", Str(DiplomaDuration)),
      Get(data, "blockchain_hash", Str(HashPlaceholder)))
  }

  datatype Certification = Certification(
    recipient: Value, domain: Value, competencies: Value, institution: Value,
    issuedDate: Value, certNumber: Value, hash: Value)

  /** pdf_generator.py `create_certification_pdf`, fields only. */
  function CertificationFields(data: Payload, today: string): (c: Certification)
    ensures c.recipient == (if "recipient_name" in data then data["recipient_name"] else Str(CertificationRecipient))
    ensures c.domain == (if "domain" in data then data["domain"] else Str(CertificationDomain))
    ensures c.competencies == (if "competencies" in data then data["competencies"] else Str(""))
    ensures c.institution == (if "institution_name" in data then data["institution_name"] else Str(InstitutionPlaceholder))
    ensures c.issuedDate == (if "graduation_date" in data then data["graduation_date"] else Str(today))
    ensures c.certNumber == (if "cert_number" in data then data["cert_number"] else Str(CertificationNumber))
    ensures c.hash == (if "blockchain_hash" in data then data["blockchain_hash"] else Str(HashPlaceholder))
  {
    Certification(
      Get(data, "recipient_name", Str(CertificationRecipient)),
      Get(data, "domain", Str(CertificationDomain)),
      Get(data, "competencies", Str("")),
      Get(data, "institution_name", Str(InstitutionPlaceholder)),
      Get(data, "graduation_date", Str(today)),
      Get(data, "cert_number", Str(CertificationNumber)),
      Get(data, "blockchain_hash", Str(HashPlaceholder)))
  }

  datatype Badge = Badge(
    recipient: Value, competence: Value, level: Value, validity: string,
    institution: Value, issuedDate: Value, hash: Value)

  /** pdf_generator.py `create_badge_pdf`, fields only: the competence is read
      from `domain`, and validity is rendered by `ValidityText`. */
  function BadgeFields(data: Payload, today: string): (b: Badge)
    ensures b.recipient == (if "recipient_name" in data then data["recipient_name"] else Str(BadgeRecipient))
    ensures b.competence == (if "domain" in data then data["domain"] else Str(BadgeCompetence))
    ensures b.level == (if "level" in data then data["level"] else Str(BadgeLevel))
    ensures "validity" !in data ==> b.validity == "24 mois"
    ensures "validity" in data && data["validity"].Str? ==> b.validity == data["validity"].s
    ensures "validity" in data && (data["validity"].Int? || data["validity"].Bool?) ==>
              b.validity == PyStr(data["validity"]) + MonthsSuffix
    ensures "validity" in data && data["validity"].Null? ==> b.validity == "None"
    ensures b.institution == (if "institution_name" in data then data["institution_name"] else Str(InstitutionPlaceholder))
    ensures b.issuedDate == (if "graduation_date" in data then data["graduation_date"] else Str(today))
    ensures b.hash == (if "blockchain_hash" in data then data["blockchain_hash"] else Str(HashPlaceholder))
  {
    Badge(
      Get(data, "recipient_name", Str(BadgeRecipient)),
      Get(data, "domain", Str(BadgeCompetence)),
      Get(data, "level", Str(BadgeLevel)),
      ValidityText(Get(data, "validity", Int(24))),
      Get(data, "institution_name", Str(InstitutionPlaceholder)),
      Get(data, "graduation_date", Str(today)),
      Get(data, "blockchain_hash", Str(HashPlaceholder)))
  }

  // ---------------------------------------------------------------------------
  // Validity

  const MonthsSuffix: string := " mois"

  /** The badge's validity line: an integer (a Python `bool` counts as one) is
      followed by " mois", anything else is shown as `str` renders it. */
  function ValidityText(v: Value): (r: string)
    ensures (v.Int? || v.Bool?) <==> r == PyStr(v) + MonthsSuffix
    ensures !(v.Int? || v.Bool?) ==> r == PyStr(v)
  {
    if v.Int? || v.Bool? then PyStr(v) + MonthsSuffix else PyStr(v)
  }

  /** A number of months reads back from its validity line. */
  lemma ValidityMonthsRoundTrip(n: nat)
    ensures var r := ValidityText(Int(n));
      && |r| > |MonthsSuffix|
      && r[|r| - |MonthsSuffix|..] == MonthsSuffix
      && (forall k | 0 <= k < |r| - |MonthsSuffix| :: IsDigit(r[k]))
      && ParseNat(r[..|r| - |MonthsSuffix|]) == n
  {
    var r := ValidityText(Int(n));
    assert r[..|r| - |MonthsSuffix|] == PyStr(Int(n));
  }

  /** Without a validity the badge reads "24 mois". */
  lemma DefaultValidity(data: Payload, today: string)
    requires "validity" !in data
    ensures BadgeFields(data, today).validity == "24 mois"
    ensures ParseNat(BadgeFields(data, today).validity[..2]) == 24
  {
    assert "24 mois"[..2] == "24";
  }

  // ---------------------------------------------------------------------------
  // Competencies

  const SkillSlots: nat := 6

  const DefaultSkills: seq<string> :=
    ["Compétence 1", "Compétence 2", "Compétence 3", "Compétence 4", "Compétence 5", "Compétence 6"]

  /** A token as the list comprehension keeps it: stripped and not empty. */
  predicate CleanToken(t: string) {
    |t| > 0 && !IsSpace(t[0]) && !IsSpace(t[|t| - 1]) && ',' !in t
  }

  /** `[s.strip() for s in pieces if s.strip()]`. */
  function StrippedTokens(pieces: seq<string>): (ts: seq<string>)
    ensures |ts| <= |pieces|
    ensures forall k | 0 <= k < |ts| :: |ts[k]| > 0
    decreases |pieces|
  {
    if |pieces| == 0 then []
    else
      var t := Strip(pieces[0]);
      if |t| > 0 then [t] + StrippedTokens(pieces[1..]) else StrippedTokens(pieces[1..])
  }

  /** Tokens already clean pass through the comprehension unchanged. */
  lemma {:induction false} StrippedTokensClean(ts: seq<string>)
    requires forall k | 0 <= k < |ts| :: |ts[k]| > 0 && !IsSpace(ts[k][0]) && !IsSpace(ts[k][|ts[k]| - 1])
    ensures StrippedTokens(ts) == ts
    decreases |ts|
  {
    if |ts| > 0 {
      StripUnchanged(ts[0]);
      StrippedTokensClean(ts[1..]);
      assert [ts[0]] + ts[1..] == ts;
    }
  }

  /** One piece gives its stripped text, unless nothing is left of it ... */
  lemma StrippedTokensOne(p: string)
    ensures StrippedTokens([p]) == if Strip(p) == "" then [] else [Strip(p)]
  {
    assert [p][1..] == [];
  }

  /** ... and the pieces of a concatenation give their tokens part by part, in
      order: the comprehension is a filter-map. */
  lemma {:induction false} StrippedTokensAppend(a: seq<string>, b: seq<string>)
    ensures StrippedTokens(a + b) == StrippedTokens(a) + StrippedTokens(b)
    decreases |a|
  {
    if |a| > 0 {
      assert (a + b)[0] == a[0];
      assert (a + b)[1..] == a[1..] + b;
      StrippedTokensAppend(a[1..], b);
    } else {
      assert a + b == b;
    }
  }

  /** Padding with empty strings up to six entries. */
  function PadSkills(ts: seq<string>): (r: seq<string>)
    requires |ts| <= SkillSlots
    ensures |r| == SkillSlots
    ensures r[..|ts|] == ts
    ensures forall k | |ts| <= k < SkillSlots :: r[k] == ""
    decreases SkillSlots - |ts|
  {
    if |ts| == SkillSlots then ts else PadSkills(ts + [""])
  }

  /** The skill list of pdf_generator.py `create_certification_pdf` for a
      string of competencies: the default six when it is empty, otherwise the
      first six clean comma-separated tokens, padded with empty entries. */
  function Skills(competencies: string): (r: seq<string>)
    ensures |r| == SkillSlots
    ensures competencies == "" ==> r == DefaultSkills
    ensures competencies != "" ==>
      var ts := StrippedTokens(Split(competencies, ','));
      && r[..Min(|ts|, SkillSlots)] == ts[..Min(|ts|, SkillSlots)]
      && forall k | |ts| <= k < SkillSlots :: r[k] == ""
  {
    if competencies == "" then DefaultSkills
    else
      var ts := StrippedTokens(Split(competencies, ','));
      PadSkills(ts[..Min(|ts|, SkillSlots)])
  }

  /** Up to six clean tokens joined with commas come back in order, padded. */
  lemma SkillsOfJoin(ts: seq<string>)
    requires 1 <= |ts| <= SkillSlots
    requires forall k | 0 <= k < |ts| :: CleanToken(ts[k])
    ensures Skills(Join(ts, ',')) == PadSkills(ts)
  {
    var j := JoinedTokens(ts);
    SkillsOfTokens(j, ts);
  }

  /** Extra tokens beyond the sixth are dropped. */
  lemma SkillsKeepFirstSix(ts: seq<string>)
    requires |ts| > SkillSlots
    requires forall k | 0 <= k < |ts| :: CleanToken(ts[k])
    ensures Skills(Join(ts, ',')) == ts[..SkillSlots]
  {
    var j := JoinedTokens(ts);
    SkillsOfTokens(j, ts);
  }

  /** The skills of a non-empty string are its first six tokens, padded. */
  lemma SkillsOfTokens(c: string, ts: seq<string>)
    requires c != "" && StrippedTokens(Split(c, ',')) == ts
    ensures |ts| <= SkillSlots ==> Skills(c) == PadSkills(ts)
    ensures |ts| > SkillSlots ==> Skills(c) == ts[..SkillSlots]
  {
    if |ts| <= SkillSlots {
      assert ts[..Min(|ts|, SkillSlots)] == ts;
    } else {
      assert PadSkills(ts[..SkillSlots]) == ts[..SkillSlots];
    }
  }

  /** Clean tokens joined with commas: a non-empty string whose split and
      cleaning give the tokens back. */
  lemma JoinedTokens(ts: seq<string>) returns (j: string)
    requires 1 <= |ts|
    requires forall k | 0 <= k < |ts| :: CleanToken(ts[k])
    ensures j == Join(ts, ',') && j != ""
    ensures StrippedTokens(Split(j, ',')) == ts
  {
    j := Join(ts, ',');
    assert |ts[0]| > 0;
    JoinDropFirst(ts, ',');
    assert forall k | 0 <= k < |ts| :: ',' !in ts[k];
    SplitJoin(ts, ',');
    StrippedTokensClean(ts);
  }

  /** The `competencies` field as the template tests it: a falsy value gives the
      defaults, a non-empty string is parsed, and any other truthy value has no
      `split` (an error in the source, `None` here). */
  function SkillsOf(v: Value): (r: Option<seq<string>>)
    ensures !Truthy(v) ==> r == Some(DefaultSkills)
    ensures v.Str? ==> r == Some(Skills(v.s))
    ensures r.None? <==> Truthy(v) && !v.Str?
    ensures r.Some? ==> |r.value| == SkillSlots
  {
    if !Truthy(v) then Some(DefaultSkills)
    else if v.Str? then Some(Skills(v.s))
    else None
  }

  // ---------------------------------------------------------------------------
  // Grid

  const GridColumns: nat := 3

  /** The (row, column) cell the template's loop gives each of `n` skills: the
      column cycles through three and the row advances whenever the column
      returns to 0 after the first skill. */
  method GridCells(n: nat) returns (cells: seq<(nat, nat)>)
    ensures |cells| == n
    ensures forall i | 0 <= i < n :: cells[i] == (i / GridColumns, i % GridColumns)
    ensures forall i, j | 0 <= i < j < n :: cells[i] != cells[j]
  {
    cells := [];
    var row: nat := 0;
    var i: nat := 0;
    while i < n
      invariant i <= n && |cells| == i
      invariant row == (if i == 0 then 0 else (i - 1) / GridColumns)
      invariant forall k | 0 <= k < i :: cells[k] == (k / GridColumns, k % GridColumns)
    {
      var col := i % GridColumns;
      if col == 0 && i > 0 {
        row := row + 1;
      }
      cells := cells + [(row, col)];
      i := i + 1;
    }
    forall i, j | 0 <= i < j < n
      ensures cells[i] != cells[j]
    {
      GridCellsDistinct(i, j);
    }
  }

  /** Distinct skills land in distinct cells, and six skills fill two rows. */
  lemma GridCellsDistinct(i: nat, j: nat)
    requires i != j
    ensures (i / GridColumns, i % GridColumns) != (j / GridColumns, j % GridColumns)
    ensures i < SkillSlots ==> i / GridColumns < 2
  {
  }
}

=== FILE: storage_concurrency.dfy ===
/** The storage node serves every connection in its own thread and takes no
    lock (storage_node.py:128-132), so an upload is not one step: its capacity
    check (storage_node.py:178) runs before the receive loop, and the counter
    update (storage_node.py:201) after it. This module splits the upload into
    those two halves, shows that two uploads admitted against the same counter
    can overcommit the node, and proves that reserving the size at the check
    keeps the counter within the capacity under every interleaving. */
module StorageConcurrency {
  import opened Common
  import opened Transfer
  import opened StorageNode

  // ---------------------------------------------------------------------------
  // The upload as written, in two halves

  /** The check at storage_node.py:178, against the counter as it is when the
      check runs. It changes nothing. */
  predicate Admits(n: Node, fileSize: int) {
    n.used + fileSize <= n.capacity
  }

  /** What the handler does after its receive loop (storage_node.py:190-207):
      the received bytes are on disk, the counter grows by the declared size
      and the index gets the entry. Nothing is checked again. */
  function CommitUpload(n: Node, fileId: FileId, fileName: string, fileSize: int, stream: seq<byte>, now: real)
    : (n': Node)
    ensures n'.capacity == n.capacity
    ensures n'.used == n.used + fileSize
    ensures fileId in n'.disk && n'.disk[fileId] == Concat(UploadReads(fileSize, stream, 0))
    ensures forall f | f in n.disk && f != fileId :: f in n'.disk && n'.disk[f] == n.disk[f]
    ensures n'.index == n.index[fileId := FileMeta(fileId, fileName, fileSize, now)]
  {
    n.(used := n.used + fileSize,
       disk := n.disk[fileId := Concat(UploadReads(fileSize, stream, 0))],
       index := n.index[fileId := FileMeta(fileId, fileName, fileSize, now)])
  }

  /** Run alone, the two halves are `UploadStep`: a refused check is the
      "Insufficient storage" reply, an admitted one is the commit. */
  lemma UploadIsCheckThenCommit(n: Node, fileId: FileId, fileName: string, fileSize: int,
                                stream: seq<byte>, now: real)
    ensures !Admits(n, fileSize) ==>
      UploadStep(n, fileId, fileName, fileSize, stream, now) == (n, Error(InsufficientStorage))
    ensures Admits(n, fileSize) ==>
      UploadStep(n, fileId, fileName, fileSize, stream, now).0 == CommitUpload(n, fileId, fileName, fileSize, stream, now)
  {
  }

  /** Two uploads whose checks both run before either commits are both
      admitted, and together they raise the counter by both sizes, whatever
      the capacity allowed. */
  lemma InterleavedUploadsCountBoth(n: Node, f1: FileId, name1: string, size1: int, s1: seq<byte>,
                                    f2: FileId, name2: string, size2: int, s2: seq<byte>, now: real)
    requires Admits(n, size1) && Admits(n, size2)
    ensures var n' := CommitUpload(CommitUpload(n, f1, name1, size1, s1, now), f2, name2, size2, s2, now);
      && n'.capacity == n.capacity
      && n'.used == n.used + size1 + size2
      && (n.used + size1 + size2 > n.capacity ==> n'.used > n'.capacity)
  {
  }

  /** An empty node of 100 bytes and two 60-byte uploads: run one after the
      other, the second is refused; interleaved, both are accepted and the
      counter ends at 120, over the capacity. */
  lemma ConcurrentUploadsOvercommit(a: seq<byte>, b: seq<byte>, now: real)
    ensures var n := Node(100, 0, map[], map[]);
      && UploadStep(UploadStep(n, "a", "a", 60, a, now).0, "b", "b", 60, b, now).1 == Error(InsufficientStorage)
      && Admits(n, 60)
      && CommitUpload(CommitUpload(n, "a", "a", 60, a, now), "b", "b", 60, b, now).used == 120
  {
    var n := Node(100, 0, map[], map[]);
    UploadIsCheckThenCommit(n, "a", "a", 60, a, now);
  }

  // ---------------------------------------------------------------------------
  // Corrected: reserve at the check

  /** The counter does not exceed the capacity. */
  predicate WithinCapacity(n: Node) {
    n.used <= n.capacity
  }

  /** The check and the counter update as one step (under a lock): an admitted
      upload reserves its declared size at once. */
  function Reserve(n: Node, fileSize: int): (out: (Node, bool))
    ensures out.1 <==> Admits(n, fileSize)
    ensures out.1 ==> out.0 == n.(used := n.used + fileSize)
    ensures !out.1 ==> out.0 == n
    ensures WithinCapacity(n) ==> WithinCapacity(out.0)
  {
    if Admits(n, fileSize) then (n.(used := n.used + fileSize), true) else (n, false)
  }

  /** After the receive loop of a reserved upload: the bytes and the index
      entry are stored, and the counter, already charged, stays. */
  function CommitReserved(n: Node, fileId: FileId, fileName: string, fileSize: int, stream: seq<byte>, now: real)
    : (n': Node)
    ensures n'.capacity == n.capacity && n'.used == n.used
    ensures fileId in n'.disk && n'.disk[fileId] == Concat(UploadReads(fileSize, stream, 0))
    ensures n'.index == n.index[fileId := FileMeta(fileId, fileName, fileSize, now)]
  {
    n.(disk := n.disk[fileId := Concat(UploadReads(fileSize, stream, 0))],
       index := n.index[fileId := FileMeta(fileId, fileName, fileSize, now)])
  }

  /** Run alone, reserving and committing is the upload as written. */
  lemma ReserveThenCommitIsUpload(n: Node, fileId: FileId, fileName: string, fileSize: int,
                                  stream: seq<byte>, now: real)
    requires Admits(n, fileSize)
    ensures CommitReserved(Reserve(n, fileSize).0, fileId, fileName, fileSize, stream, now)
         == UploadStep(n, fileId, fileName, fileSize, stream, now).0
  {
  }

  /** The steps of concurrent handlers, in the order they happen to run. */
  datatype Event =
    | Check(size: int)
    | Commit(fileId: FileId, fileName: string, commitSize: int, stream: seq<byte>, now: real)
    | Remove(removed: FileId)

  /** The node after an interleaving of reservations, commits and deletes. */
  function RunReserved(n: Node, evs: seq<Event>): (n': Node)
    ensures n'.capacity == n.capacity
    decreases |evs|
  {
    if |evs| == 0 then n
    else
      var n1 := match evs[0]
        case Check(size) => Reserve(n, size).0
        case Commit(f, name, size, stream, now) => CommitReserved(n, f, name, size, stream, now)
        case Remove(f) => DeleteStep(n, f).0;
      RunReserved(n1, evs[1..])
  }

  /** With reservation, no interleaving of uploads and deletes takes the
      counter over the capacity. */
  lemma {:induction false} ReservedNeverOvercommits(n: Node, evs: seq<Event>)
    requires WithinCapacity(n)
    ensures WithinCapacity(RunReserved(n, evs))
    decreases |evs|
  {
    if |evs| > 0 {
      var n1 := match evs[0]
        case Check(size) => Reserve(n, size).0
        case Commit(f, name, size, stream, now) => CommitReserved(n, f, name, size, stream, now)
        case Remove(f) => DeleteStep(n, f).0;
      assert WithinCapacity(n1);
      ReservedNeverOvercommits(n1, evs[1..]);
    }
  }

  /** The two 60-byte uploads of `ConcurrentUploadsOvercommit`, with
      reservation: whichever order the checks run in, the second is refused. */
  lemma ReservedRefusesSecond()
    ensures var n := Node(100, 0, map[], map[]);
      && Reserve(n, 60).1
      && !Reserve(Reserve(n, 60).0, 60).1
      && Reserve(Reserve(n, 60).0, 60).0.used == 60
  {
  }
}

=== FILE: storage_node.dfy ===
/** A storage node (`StorageNode`): a capacity-bounded store of blobs keyed by
    file id, its `used_storage` counter and its file index, serving upload,
    download and delete. The local directory is an abstract disk map from file
    id to content; the bytes a sender transmits after the ready signal are the
    `stream` parameter of an upload. Each handler here is one uninterrupted
    run; the node takes no lock, and `StorageConcurrency` splits the upload
    to show what an interleaving does. */
module StorageNode {
  import opened Common
  import opened Transfer

  type FileId = string

  /** An entry of the node's local file index (`self.files`). */
  datatype FileMeta = FileMeta(fileId: FileId, fileName: string, fileSize: int, uploadTime: real)

  /** `used` is the node's running counter; `disk` is what its directory holds. */
  datatype Node = Node(
    capacity: int,
    used: int,
    disk: map<FileId, seq<byte>>,
    index: map<FileId, FileMeta>)

  datatype Request =
    | Upload(fileId: FileId, fileName: string, fileSize: int, stream: seq<byte>)
    | UploadReset(fileId: FileId, fileName: string, fileSize: int, stream: seq<byte>, reason: string)
    | Download(dlFileId: FileId)
    | Delete(delFileId: FileId)
    | Other(kind: string)

  datatype Response =
    | Received(bytesReceived: nat)
    | Sending(fileSize: nat, chunks: seq<seq<byte>>)
    | Deleted
    | Error(message: string)

  const InsufficientStorage: string := "Insufficient storage"
  const FileNotFound: string := "File not found"
  const UnknownRequest: string := "Unknown request"

  /** Bytes in use on the disk: the sum of the sizes of its files. */
  ghost function DiskUsage(disk: map<FileId, seq<byte>>): nat
    decreases |disk.Keys|
  {
    if disk == map[] then 0
    else
      var k :| k in disk;
      assert |(disk - {k}).Keys| < |disk.Keys| by {
        assert (disk - {k}).Keys == disk.Keys - {k};
      }
      |disk[k]| + DiskUsage(disk - {k})
  }

  /** Whichever file is taken out first, the sum is the same. */
  lemma {:induction false} DiskUsageRemove(disk: map<FileId, seq<byte>>, k: FileId)
    requires k in disk
    ensures DiskUsage(disk) == |disk[k]| + DiskUsage(disk - {k})
    decreases |disk.Keys|
  {
    var j :| j in disk && DiskUsage(disk) == |disk[j]| + DiskUsage(disk - {j});
    if j != k {
      assert (disk - {j}).Keys == disk.Keys - {j};
      assert (disk - {k}).Keys == disk.Keys - {k};
      DiskUsageRemove(disk - {j}, k);
      DiskUsageRemove(disk - {k}, j);
      assert (disk - {j}) - {k} == (disk - {k}) - {j};
    }
  }

  /** Writing `content` under `k` replaces whatever `k` held. */
  lemma DiskUsageStore(disk: map<FileId, seq<byte>>, k: FileId, content: seq<byte>)
    ensures DiskUsage(disk[k := content]) + (if k in disk then |disk[k]| else 0) == DiskUsage(disk) + |content|
  {
    var d := disk[k := content];
    DiskUsageRemove(d, k);
    if k in disk {
      DiskUsageRemove(disk, k);
      assert d - {k} == disk - {k};
    } else {
      assert d - {k} == disk;
    }
  }

  /** How far the counter is from the bytes actually on disk. */
  ghost function Drift(n: Node): int {
    n.used - DiskUsage(n.disk)
  }

  // ---------------------------------------------------------------------------
  // Start-up

  /** storage_node.py `_calculate_used_storage`: the sum of the sizes of the
      files found on disk. */
  method CalculateUsedStorage(disk: map<FileId, seq<byte>>) returns (total: nat)
    ensures total == DiskUsage(disk)
  {
    total := 0;
    var left := disk;
    while left != map[]
      invariant total + DiskUsage(left) == DiskUsage(disk)
      decreases |left.Keys|
    {
      var k :| k in left;
      DiskUsageRemove(left, k);
      total := total + |left[k]|;
      assert (left - {k}).Keys == left.Keys - {k};
      left := left - {k};
    }
  }

  /** storage_node.py `__init__`: a capacity of `capacityGb` GiB, the counter
      set from what is already on disk, an empty file index. */
  method Start(capacityGb: int, disk: map<FileId, seq<byte>>) returns (n: Node)
    ensures n.capacity == capacityGb * 1024 * 1024 * 1024
    ensures n.disk == disk && n.index == map[]
    ensures n.used == DiskUsage(disk) && Drift(n) == 0
  {
    var used := CalculateUsedStorage(disk);
    n := Node(capacityGb * GiB, used, disk, map[]);
  }

  // ---------------------------------------------------------------------------
  // Upload, download, delete

  /** storage_node.py `_handle_upload`. Rejected when the declared size does not
      fit; otherwise the received bytes are written under the file id, the
      counter grows by the declared size and the index gets an entry. */
  function UploadStep(n: Node, fileId: FileId, fileName: string, fileSize: int, stream: seq<byte>, now: real)
    : (out: (Node, Response))
    ensures out.1.Error? <==> n.used + fileSize > n.capacity
    ensures out.1.Error? ==> out == (n, Error(InsufficientStorage))
    ensures out.1.Received? ==>
      && out.0.capacity == n.capacity
      && out.0.used == n.used + fileSize
      && fileId in out.0.disk
      && out.1.bytesReceived == (if fileSize <= 0 then 0 else Min(fileSize, |stream|))
      && out.0.disk[fileId] == stream[..out.1.bytesReceived]
      && out.0.disk.Keys == n.disk.Keys + {fileId}
      && (forall f | f in n.disk && f != fileId :: out.0.disk[f] == n.disk[f])
      && out.0.index == n.index[fileId := FileMeta(fileId, fileName, fileSize, now)]
    ensures out.1.Error? || out.1.Received?
  {
    if n.used + fileSize > n.capacity then (n, Error(InsufficientStorage))
    else
      var written := Concat(UploadReads(fileSize, stream, 0));
      (n.(used := n.used + fileSize,
          disk := n.disk[fileId := written],
          index := n.index[fileId := FileMeta(fileId, fileName, fileSize, now)]),
       Received(|written|))
  }

  /** storage_node.py `_handle_upload` when `recv` raises (the connection is
      reset) after the sender delivered `stream` and before the declared size
      arrived. `open(..., 'wb')` has already replaced the file by the bytes
      written so far; the counter and the index are never updated; and
      `_handle_request` answers with the exception's text `reason`. A size
      that does not fit is refused before any read, and a stream that covers
      the declared size ends the loop before the reset is seen. */
  function UploadResetStep(n: Node, fileId: FileId, fileName: string, fileSize: int, stream: seq<byte>,
                           reason: string, now: real): (out: (Node, Response))
    ensures n.used + fileSize > n.capacity ==> out == (n, Error(InsufficientStorage))
    ensures n.used + fileSize <= n.capacity && fileSize <= |stream| ==>
              out == UploadStep(n, fileId, fileName, fileSize, stream, now)
    ensures n.used + fileSize <= n.capacity && |stream| < fileSize ==>
      && out.1 == Error(reason)
      && out.0.capacity == n.capacity && out.0.used == n.used && out.0.index == n.index
      && out.0.disk == n.disk[fileId := stream]
  {
    if n.used + fileSize > n.capacity || fileSize <= |stream| then
      UploadStep(n, fileId, fileName, fileSize, stream, now)
    else
      var written := Concat(UploadReads(fileSize, stream, 0));
      assert written == stream[0..|stream|];
      assert stream[0..|stream|] == stream;
      (n.(disk := n.disk[fileId := written]), Error(reason))
  }

  /** storage_node.py `_handle_download`: the on-disk size, then the content in
      chunks of at most 8 KiB. Nothing changes. */
  function DownloadReply(n: Node, fileId: FileId): (r: Response)
    ensures fileId !in n.disk <==> r == Error(FileNotFound)
    ensures r.Sending? ==> r.fileSize == |n.disk[fileId]| && Concat(r.chunks) == n.disk[fileId]
    ensures r.Sending? ==> forall k | 0 <= k < |r.chunks| :: 0 < |r.chunks[k]| <= TransferChunk
    ensures r.Error? || r.Sending?
  {
    if fileId !in n.disk then Error(FileNotFound)
    else Sending(|n.disk[fileId]|, DownloadChunks(n.disk[fileId]))
  }

  /** storage_node.py `_handle_delete`: removes the file, subtracts its on-disk
      size from the counter and drops its index entry if there is one. */
  function DeleteStep(n: Node, fileId: FileId): (out: (Node, Response))
    ensures fileId !in n.disk <==> out.1 == Error(FileNotFound)
    ensures out.1.Error? ==> out.0 == n
    ensures out.1 == Deleted ==>
      && out.0.capacity == n.capacity
      && out.0.used == n.used - |n.disk[fileId]|
      && out.0.disk == n.disk - {fileId}
      && out.0.index == n.index - {fileId}
    ensures out.1.Error? || out.1 == Deleted
  {
    if fileId !in n.disk then (n, Error(FileNotFound))
    else (n.(used := n.used - |n.disk[fileId]|, disk := n.disk - {fileId}, index := n.index - {fileId}), Deleted)
  }

  /** storage_node.py `_handle_request` after the request is read: dispatch on
      the request type. */
  function Handle(n: Node, req: Request, now: real): (out: (Node, Response))
    ensures req.Other? ==> out == (n, Error(UnknownRequest))
    ensures req.Download? ==> out.0 == n
    ensures out.0.capacity == n.capacity
  {
    match req
    case Upload(f, name, size, stream) => UploadStep(n, f, name, size, stream, now)
    case UploadReset(f, name, size, stream, reason) => UploadResetStep(n, f, name, size, stream, reason, now)
    case Download(f) => (n, DownloadReply(n, f))
    case Delete(f) => DeleteStep(n, f)
    case Other(_) => (n, Error(UnknownRequest))
  }

  // ---------------------------------------------------------------------------
  // Properties across requests

  /** A complete upload followed by a download returns exactly the uploaded
      bytes, with the declared size announced. */
  lemma UploadDownloadRoundTrip(n: Node, fileId: FileId, fileName: string, data: seq<byte>, now: real)
    requires n.used + |data| <= n.capacity
    ensures var (n', r) := UploadStep(n, fileId, fileName, |data|, data, now);
      && r == Received(|data|)
      && DownloadReply(n', fileId).Sending?
      && DownloadReply(n', fileId).fileSize == |data|
      && Concat(DownloadReply(n', fileId).chunks) == data
  {
  }

  /** How an accepted upload moves the counter away from the disk: by the bytes
      that were declared but never arrived, plus the size of any file it
      overwrote. */
  lemma UploadDrift(n: Node, fileId: FileId, fileName: string, fileSize: int, stream: seq<byte>, now: real)
    requires n.used + fileSize <= n.capacity
    ensures var (n', r) := UploadStep(n, fileId, fileName, fileSize, stream, now);
      Drift(n') == Drift(n) + (fileSize - r.bytesReceived) + (if fileId in n.disk then |n.disk[fileId]| else 0)
  {
    var (n', r) := UploadStep(n, fileId, fileName, fileSize, stream, now);
    DiskUsageStore(n.disk, fileId, n'.disk[fileId]);
  }

  /** An upload cut by a reset moves the counter the other way: the bytes that
      arrived are on disk but not counted, and any overwritten file is gone
      from the disk while its size stays counted. */
  lemma UploadResetDrift(n: Node, fileId: FileId, fileName: string, fileSize: int, stream: seq<byte>,
                         reason: string, now: real)
    requires n.used + fileSize <= n.capacity && |stream| < fileSize
    ensures var n' := UploadResetStep(n, fileId, fileName, fileSize, stream, reason, now).0;
      Drift(n') == Drift(n) - |stream| + (if fileId in n.disk then |n.disk[fileId]| else 0)
  {
    DiskUsageStore(n.disk, fileId, stream);
  }

  /** Deleting a file keeps the counter's drift unchanged. */
  lemma DeleteDrift(n: Node, fileId: FileId)
    ensures Drift(DeleteStep(n, fileId).0) == Drift(n)
  {
    if fileId in n.disk {
      DiskUsageRemove(n.disk, fileId);
    }
  }

  /** So a node whose counter matches its disk keeps it matching through
      complete uploads of new files and through deletes. */
  lemma CounterExactWhileUploadsComplete(n: Node, fileId: FileId, fileName: string, data: seq<byte>, now: real)
    requires Drift(n) == 0 && fileId !in n.disk && n.used + |data| <= n.capacity
    ensures Drift(UploadStep(n, fileId, fileName, |data|, data, now).0) == 0
  {
    UploadDrift(n, fileId, fileName, |data|, data, now);
  }

  /** A sender that closes after fewer bytes than it declared leaves the counter
      above the disk by the missing bytes. */
  lemma ShortUploadOvercounts(n: Node, fileId: FileId, fileName: string, fileSize: int, stream: seq<byte>, now: real)
    requires Drift(n) == 0 && fileId !in n.disk && n.used + fileSize <= n.capacity
    requires 0 <= |stream| < fileSize
    ensures Drift(UploadStep(n, fileId, fileName, fileSize, stream, now).0) == fileSize - |stream| > 0
  {
    UploadDrift(n, fileId, fileName, fileSize, stream, now);
  }
}

=== FILE: text.dfy ===
/** The few Python string primitives the application relies on: `str.strip()`,
    `str.lower()` on ASCII, `str.split(',')`, `str(int)` and the `:05d` format. */
module Text {

  /** The characters of Python's `str.isspace()`: the ASCII whitespace and
      separator controls, the Unicode space separators, and the line and
      paragraph separators. */
  const Whitespace: set<char> := {
    '\t', '\n', '\U{0B}', '\U{0C}', '\r', '\U{1C}', '\U{1D}', '\U{1E}', '\U{1F}', ' ',
    '\U{85}', '\U{A0}', '\U{1680}',
    '\U{2000}', '\U{2001}', '\U{2002}', '\U{2003}', '\U{2004}', '\U{2005}',
    '\U{2006}', '\U{2007}', '\U{2008}', '\U{2009}', '\U{200A}',
    '\U{2028}', '\U{2029}', '\U{202F}', '\U{205F}', '\U{3000}'
  }

  predicate IsSpace(c: char) {
    c in Whitespace
  }

  predicate AllSpace(s: string) {
    forall i | 0 <= i < |s| :: IsSpace(s[i])
  }

  /** Number of leading whitespace characters. */
  function LeadingSpaces(s: string): (n: nat)
    ensures n <= |s|
    ensures AllSpace(s[..n])
    ensures n < |s| ==> !IsSpace(s[n])
    decreases |s|
  {
    if |s| == 0 || !IsSpace(s[0]) then 0
    else
      var k := LeadingSpaces(s[1..]);
      assert s[1..][..k] == s[1..k + 1];
      1 + k
  }

  /** Number of trailing whitespace characters. */
  function TrailingSpaces(s: string): (n: nat)
    ensures n <= |s|
    ensures AllSpace(s[|s| - n..])
    ensures n < |s| ==> !IsSpace(s[|s| - n - 1])
    decreases |s|
  {
    if |s| == 0 || !IsSpace(s[|s| - 1]) then 0
    else
      var k := TrailingSpaces(s[..|s| - 1]);
      assert s[..|s| - 1][|s| - 1 - k..] == s[|s| - 1 - k..|s| - 1];
      1 + k
  }

  /** Python's `str.strip()` with no argument: what is left once the leading
      and the trailing whitespace are cut off. */
  function Strip(s: string): (r: string)
    ensures |r| <= |s|
    ensures |r| > 0 ==> !IsSpace(r[0]) && !IsSpace(r[|r| - 1])
    ensures |r| == 0 <==> AllSpace(s)
  {
    var t := s[LeadingSpaces(s)..];
    var r := t[..|t| - TrailingSpaces(t)];
    assert |r| == 0 ==> AllSpace(s) by {
      if |r| == 0 {
        assert t == t[|t| - TrailingSpaces(t)..];
        AllSpaceConcat(s[..LeadingSpaces(s)], t);
        assert s[..LeadingSpaces(s)] + t == s;
      }
    }
    r
  }

  lemma AllSpaceConcat(a: string, b: string)
    requires AllSpace(a) && AllSpace(b)
    ensures AllSpace(a + b)
  {
    forall i | 0 <= i < |a + b| ensures IsSpace((a + b)[i]) {
      if i >= |a| { assert (a + b)[i] == b[i - |a|]; }
    }
  }

  /** `Strip` cuts only whitespace: the input is some whitespace, the result,
      and some more whitespace. */
  lemma StripShape(s: string)
    ensures var a := LeadingSpaces(s);
      && a + |Strip(s)| <= |s|
      && s == s[..a] + Strip(s) + s[a + |Strip(s)|..]
      && AllSpace(s[..a]) && AllSpace(s[a + |Strip(s)|..])
  {
    var a := LeadingSpaces(s);
    var t := s[a..];
    var b := TrailingSpaces(t);
    var e := a + (|t| - b);
    assert Strip(s) == s[a..e];
    assert s[e..] == t[|t| - b..];
    SplitThree(s, a, e);
  }

  /** A string is its prefix, a middle slice and its suffix. */
  lemma SplitThree(s: string, a: nat, e: nat)
    requires a <= e <= |s|
    ensures s == s[..a] + s[a..e] + s[e..]
  {
  }

  /** Stripping twice is stripping once. */
  lemma StripIdempotent(s: string)
    ensures Strip(Strip(s)) == Strip(s)
  {
    var r := Strip(s);
    if |r| > 0 {
      assert LeadingSpaces(r) == 0;
      assert TrailingSpaces(r[LeadingSpaces(r)..]) == 0;
      assert r[0..][..|r|] == r;
    }
  }

  /** A string that neither starts nor ends with whitespace is its own strip. */
  lemma StripUnchanged(s: string)
    requires |s| > 0 && !IsSpace(s[0]) && !IsSpace(s[|s| - 1])
    ensures Strip(s) == s
  {
    assert LeadingSpaces(s) == 0;
    assert TrailingSpaces(s[0..]) == 0;
    assert s[0..][..|s|] == s;
  }

  /** ASCII part of Python's `str.lower()`. */
  function LowerChar(c: char): char {
    if 'A' <= c <= 'Z' then (c as int - 'A' as int + 'a' as int) as char else c
  }

  function Lower(s: string): (r: string)
    ensures |r| == |s|
    ensures forall i | 0 <= i < |s| :: r[i] == LowerChar(s[i])
  {
    seq(|s|, i requires 0 <= i < |s| => LowerChar(s[i]))
  }

  /** Lowering never turns a character into whitespace. */
  lemma LowerKeepsSpace(c: char)
    ensures IsSpace(LowerChar(c)) ==> IsSpace(c)
  {
    if 'A' <= c <= 'Z' {
      assert 'a' <= LowerChar(c) <= 'z';
    }
  }

  /** After lowering no ASCII capital remains, and lowering again changes nothing. */
  lemma LowerIdempotent(s: string)
    ensures forall i | 0 <= i < |s| :: !('A' <= Lower(s)[i] <= 'Z')
    ensures Lower(Lower(s)) == Lower(s)
  {
  }

  // ---------------------------------------------------------------------------
  // Splitting on a separator

  /** Python's `s.split(sep)` for a one-character separator: always at least one
      piece, and empty pieces are kept. */
  function Split(s: string, sep: char): (pieces: seq<string>)
    ensures |pieces| >= 1
    ensures forall k | 0 <= k < |pieces| :: sep !in pieces[k]
    decreases |s|
  {
    if |s| == 0 then [[]]
    else
      var tail := Split(s[1..], sep);
      if s[0] == sep then [[]] + tail
      else [[s[0]] + tail[0]] + tail[1..]
  }

  /** `sep.join(pieces)`. */
  function Join(pieces: seq<string>, sep: char): string
    requires |pieces| >= 1
    decreases |pieces|
  {
    if |pieces| == 1 then pieces[0] else pieces[0] + [sep] + Join(pieces[1..], sep)
  }

  /** Joining the pieces with the separator gives back the split string. */
  lemma {:induction false} JoinSplit(s: string, sep: char)
    ensures Join(Split(s, sep), sep) == s
    decreases |s|
  {
    if |s| > 0 {
      var tail := Split(s[1..], sep);
      JoinSplit(s[1..], sep);
      if s[0] == sep {
        assert ([[]] + tail)[1..] == tail;
      } else {
        var ps := [[s[0]] + tail[0]] + tail[1..];
        if |tail| == 1 {
          assert Join(ps, sep) == [s[0]] + tail[0];
        } else {
          assert ps[1..] == tail[1..];
          assert Join(tail, sep) == tail[0] + [sep] + Join(tail[1..], sep);
        }
        assert [s[0]] + s[1..] == s;
      }
    }
  }

  /** Splitting a join of separator-free pieces gives the pieces back. */
  lemma {:induction false} SplitJoin(pieces: seq<string>, sep: char)
    requires |pieces| >= 1
    requires forall k | 0 <= k < |pieces| :: sep !in pieces[k]
    ensures Split(Join(pieces, sep), sep) == pieces
    decreases |pieces|, |pieces[0]|
  {
    var p := pieces[0];
    if |p| == 0 {
      if |pieces| > 1 {
        var rest := Join(pieces[1..], sep);
        assert Join(pieces, sep) == [sep] + rest;
        assert ([sep] + rest)[1..] == rest;
        SplitJoin(pieces[1..], sep);
        assert [[]] + pieces[1..] == pieces;
      }
    } else {
      var shorter := [p[1..]] + pieces[1..];
      assert shorter[1..] == pieces[1..];
      assert sep !in p[1..] by {
        assert forall c | c in p[1..] :: c in p;
      }
      assert forall k | 1 <= k < |shorter| :: shorter[k] == pieces[k];
      SplitJoin(shorter, sep);
      var j := Join(pieces, sep);
      JoinDropFirst(pieces, sep);
      var tail := Split(j[1..], sep);
      assert tail == shorter;
      assert Split(j, sep) == [[p[0]] + tail[0]] + tail[1..];
      assert [p[0]] + p[1..] == p;
      assert [[p[0]] + p[1..]] + pieces[1..] == pieces;
    }
  }

  /** Dropping the first character of a join whose first piece is not empty. */
  lemma JoinDropFirst(pieces: seq<string>, sep: char)
    requires |pieces| >= 1 && |pieces[0]| > 0
    ensures |Join(pieces, sep)| > 0 && Join(pieces, sep)[0] == pieces[0][0]
    ensures Join(pieces, sep)[1..] == Join([pieces[0][1..]] + pieces[1..], sep)
  {
    var p := pieces[0];
    var shorter := [p[1..]] + pieces[1..];
    assert shorter[1..] == pieces[1..];
    if |pieces| > 1 {
      var rest := [sep] + Join(pieces[1..], sep);
      assert Join(pieces, sep) == p + rest;
      assert (p + rest)[1..] == p[1..] + rest;
    }
  }

  // ---------------------------------------------------------------------------
  // Decimal rendering

  predicate IsDigit(c: char) {
    '0' <= c <= '9'
  }

  function DigitChar(d: nat): char
    requires d < 10
  {
    ('0' as int + d) as char
  }

  function DigitValue(c: char): nat
    requires IsDigit(c)
  {
    c as int - '0' as int
  }

  /** Python's `str(n)` for a natural number: no leading zero except for 0 itself. */
  function NatToString(n: nat): (r: string)
    ensures |r| >= 1
    ensures forall i | 0 <= i < |r| :: IsDigit(r[i])
    ensures |r| > 1 ==> r[0] != '0'
    decreases n
  {
    if n < 10 then [DigitChar(n)] else NatToString(n / 10) + [DigitChar(n % 10)]
  }

  /** Python's `str(i)` for any integer. */
  function IntToString(i: int): string {
    if i < 0 then "-" + NatToString(-i) else NatToString(i)
  }

  /** Reads a string of digits as a number, most significant digit first. */
  function ParseNat(s: string): nat
    requires forall i | 0 <= i < |s| :: IsDigit(s[i])
    decreases |s|
  {
    if |s| == 0 then 0 else 10 * ParseNat(s[..|s| - 1]) + DigitValue(s[|s| - 1])
  }

  /** Decimal rendering is a faithful encoding: reading it back gives the number. */
  lemma {:induction false} ParseNatToString(n: nat)
    ensures ParseNat(NatToString(n)) == n
    decreases n
  {
    if n >= 10 {
      var s := NatToString(n);
      assert s[..|s| - 1] == NatToString(n / 10);
      ParseNatToString(n / 10);
    }
  }

  function Zeros(k: nat): (r: string)
    ensures |r| == k
    ensures forall i | 0 <= i < k :: r[i] == '0'
  {
    seq(k, _ => '0')
  }

  /** Left-pads with '0' up to `width` characters; longer strings are kept whole. */
  function PadZeros(s: string, width: nat): (r: string)
    ensures |r| == if |s| >= width then |s| else width
    ensures r[|r| - |s|..] == s
    ensures forall i | 0 <= i < |r| - |s| :: r[i] == '0'
  {
    if |s| >= width then s else Zeros(width - |s|) + s
  }

  /** Leading zeros do not change the value read. */
  lemma {:induction false} ParseNatLeadingZeros(k: nat, s: string)
    requires forall i | 0 <= i < |s| :: IsDigit(s[i])
    ensures forall i | 0 <= i < |Zeros(k) + s| :: IsDigit((Zeros(k) + s)[i])
    ensures ParseNat(Zeros(k) + s) == ParseNat(s)
    decreases |s|
  {
    var z := Zeros(k) + s;
    assert forall i | 0 <= i < |z| :: IsDigit(z[i]) by {
      forall i | 0 <= i < |z| ensures IsDigit(z[i]) {
        if i >= k { assert z[i] == s[i - k]; }
      }
    }
    if |s| == 0 {
      assert z == Zeros(k);
      ZerosParse(k);
    } else {
      assert z[..|z| - 1] == Zeros(k) + s[..|s| - 1];
      ParseNatLeadingZeros(k, s[..|s| - 1]);
    }
  }

  lemma {:induction false} ZerosParse(k: nat)
    ensures ParseNat(Zeros(k)) == 0
    decreases k
  {
    if k > 0 {
      assert Zeros(k)[..k - 1] == Zeros(k - 1);
      ZerosParse(k - 1);
    }
  }

  /** Python's `format(i, '05d')`: sign first, then the digits zero-padded so
      that sign and digits together take at least five characters. */
  function Format05d(i: int): (r: string)
    ensures i >= 0 ==> |r| == if |NatToString(i)| >= 5 then |NatToString(i)| else 5
    ensures i >= 0 ==> forall k | 0 <= k < |r| :: IsDigit(r[k])
    ensures i < 0 ==> |r| >= 5 && r[0] == '-'
  {
    if i < 0 then "-" + PadZeros(NatToString(-i), 4) else PadZeros(NatToString(i), 5)
  }

  /** The padded rendering of a natural number still reads back as that number. */
  lemma Format05dRoundTrip(n: nat)
    ensures ParseNat(Format05d(n)) == n
  {
    var d := NatToString(n);
    ParseNatToString(n);
    if |d| < 5 {
      ParseNatLeadingZeros(5 - |d|, d);
    }
  }
}

=== FILE: transfer.dfy ===
/** The storage node's byte-transfer loops as functions over what the socket
    delivers: the request read loop (storage_node.py:141-146), the bounded
    receive loop of an upload (storage_node.py:190-198) and the 8 KiB chunking
    of a download (storage_node.py:240-245). A receive call is modelled by the
    chunk it returns. Also the length-prefixed framing that replaces the
    request read loop. */
module Transfer {
  import opened Common

  /** Size of each `recv` of the request read loop. */
  const RequestChunk: nat := 4096
  /** Largest read of the upload loop and largest chunk of a download. */
  const TransferChunk: nat := 8192

  // ---------------------------------------------------------------------------
  // The request read loop, as written

  /** Index of the first chunk shorter than a full 4096-byte read, if any. */
  function FirstShort(chunks: seq<seq<byte>>): (r: Option<nat>)
    ensures r.Some? ==> r.value < |chunks| && |chunks[r.value]| < RequestChunk
    ensures r.Some? ==> forall k | 0 <= k < r.value :: |chunks[k]| >= RequestChunk
    ensures r.None? ==> forall k | 0 <= k < |chunks| :: |chunks[k]| >= RequestChunk
    decreases |chunks|
  {
    if |chunks| == 0 then None
    else if |chunks[0]| < RequestChunk then Some(0)
    else
      match FirstShort(chunks[1..])
      case Some(k) => Some(k + 1)
      case None => None
  }

  /** The loop `data += recv(4096)` that stops after the first chunk shorter than
      4096 bytes: the message is the concatenation of the chunks up to and
      including that one, and the number of chunks read is returned with it.
      `None` means every chunk delivered so far was full, so the loop is still
      waiting for another `recv`. */
  function ReadRequest(chunks: seq<seq<byte>>): (r: Option<(seq<byte>, nat)>)
    ensures r.None? <==> forall k | 0 <= k < |chunks| :: |chunks[k]| >= RequestChunk
    ensures r.Some? ==> 1 <= r.value.1 <= |chunks|
    ensures r.Some? ==> r.value.0 == Concat(chunks[..r.value.1])
    ensures r.Some? ==> |chunks[r.value.1 - 1]| < RequestChunk
    ensures r.Some? ==> forall k | 0 <= k < r.value.1 - 1 :: |chunks[k]| >= RequestChunk
  {
    match FirstShort(chunks)
    case Some(k) => Some((Concat(chunks[..k + 1]), k + 1))
    case None => None
  }

  // ---------------------------------------------------------------------------
  // The upload receive loop

  /** The chunks the upload loop obtains when the sender's bytes are `stream`
      (after which the sender closes) and `received` bytes are already written:
      each read asks `min(8192, fileSize - received)` bytes and gets as many as
      the stream still holds, up to that; an empty read ends the loop. */
  function UploadReads(fileSize: int, stream: seq<byte>, received: nat): (got: seq<seq<byte>>)
    requires received <= |stream|
    ensures forall k | 0 <= k < |got| :: 0 < |got[k]| <= TransferChunk
    ensures received + |Concat(got)| <= |stream|
    ensures Concat(got) == stream[received..received + |Concat(got)|]
    ensures received + |Concat(got)| == if fileSize <= received then received
                                          else Min(fileSize, |stream|)
    decreases |stream| - received
  {
    if received >= fileSize then []
    else
      var n := Min(Min(TransferChunk, fileSize - received), |stream| - received);
      if n == 0 then []
      else
        var rest := UploadReads(fileSize, stream, received + n);
        ReadsPrepend(stream, received, n, rest);
        ReadCount(fileSize, |stream|, received, n, |Concat(rest)|);
        ChunkSizesPrepend(stream[received..received + n], rest);
        [stream[received..received + n]] + rest
  }

  /** Prepending a chunk of 1..8192 bytes keeps every chunk within those bounds. */
  lemma ChunkSizesPrepend(chunk: seq<byte>, rest: seq<seq<byte>>)
    requires 0 < |chunk| <= TransferChunk
    requires forall k | 0 <= k < |rest| :: 0 < |rest[k]| <= TransferChunk
    ensures forall k | 0 <= k < |[chunk] + rest| :: 0 < |([chunk] + rest)[k]| <= TransferChunk
  {
    forall k | 0 < k < |[chunk] + rest| ensures ([chunk] + rest)[k] == rest[k - 1] {}
  }

  /** One read of `n` bytes in front of reads that continue the stream
      continues it too. */
  lemma ReadsPrepend(stream: seq<byte>, received: nat, n: nat, rest: seq<seq<byte>>)
    requires received + n + |Concat(rest)| <= |stream|
    requires Concat(rest) == stream[received + n..received + n + |Concat(rest)|]
    ensures |Concat([stream[received..received + n]] + rest)| == n + |Concat(rest)|
    ensures Concat([stream[received..received + n]] + rest) == stream[received..received + n + |Concat(rest)|]
  {
    var chunk := stream[received..received + n];
    ConcatCons(chunk, rest);
    assert chunk + Concat(rest) == stream[received..received + n + |Concat(rest)|];
  }

  /** The byte count of one read followed by the rest of the loop. */
  lemma ReadCount(fileSize: int, len: nat, received: nat, got: nat, later: nat)
    requires received < fileSize && 0 < got
    requires got == Min(Min(TransferChunk, fileSize - received), len - received)
    requires received + got + later == if fileSize <= received + got then received + got else Min(fileSize, len)
    ensures received + (got + later) == Min(fileSize, len)
  {
  }

  /** The same loop as it is written in the source, as a method with a `while`:
      returns the bytes written to the file. */
  method ReceiveUpload(fileSize: int, stream: seq<byte>) returns (written: seq<byte>)
    ensures |written| == if fileSize <= 0 then 0 else Min(fileSize, |stream|)
    ensures written == stream[..|written|]
    ensures written == Concat(UploadReads(fileSize, stream, 0))
  {
    var received := 0;
    written := [];
    while received < fileSize
      invariant 0 <= received <= |stream|
      invariant fileSize > 0 ==> received <= fileSize
      invariant fileSize <= 0 ==> received == 0
      invariant written == stream[..received]
      decreases fileSize - received
    {
      var chunkSize := Min(TransferChunk, fileSize - received);
      var chunk := stream[received..Min(received + chunkSize, |stream|)];
      if |chunk| == 0 {
        assert received == |stream|;
        break;
      }
      written := written + chunk;
      received := received + |chunk|;
    }
  }

  // ---------------------------------------------------------------------------
  // Download chunking

  /** `f.read(8192)` until end of file: full 8 KiB chunks, then the remainder. */
  function DownloadChunks(content: seq<byte>): (chunks: seq<seq<byte>>)
    ensures Concat(chunks) == content
    ensures forall k | 0 <= k < |chunks| :: 0 < |chunks[k]| <= TransferChunk
    ensures forall k | 0 <= k < |chunks| - 1 :: |chunks[k]| == TransferChunk
    ensures |chunks| == (|content| + TransferChunk - 1) / TransferChunk
    decreases |content|
  {
    if |content| == 0 then []
    else if |content| <= TransferChunk then
      assert Concat([content]) == Concat([content][..0]) + content;
      [content]
    else
      var rest := DownloadChunks(content[TransferChunk..]);
      ConcatCons(content[..TransferChunk], rest);
      assert content[..TransferChunk] + content[TransferChunk..] == content;
      [content[..TransferChunk]] + rest
  }

  // ---------------------------------------------------------------------------
  // Length-prefixed framing

  /** Width of the big-endian length header. */
  const HeaderSize: nat := 4
  const MaxFrameLength: nat := 0x1_0000_0000

  /** Big-endian, most significant byte first. */
  function EncodeLength(n: nat): (h: seq<byte>)
    requires n < MaxFrameLength
    ensures |h| == HeaderSize
  {
    var m1 := n / 0x100;
    var m2 := m1 / 0x100;
    assert m2 / 0x100 < 0x100;
    [(m2 / 0x100) as byte, (m2 % 0x100) as byte, (m1 % 0x100) as byte, (n % 0x100) as byte]
  }

  function DecodeLength(h: seq<byte>): (n: nat)
    requires |h| == HeaderSize
    ensures n < MaxFrameLength
  {
    ((h[0] as nat * 0x100 + h[1] as nat) * 0x100 + h[2] as nat) * 0x100 + h[3] as nat
  }

  /** The header reads back as the length it encodes. */
  lemma DecodeEncodeLength(n: nat)
    requires n < MaxFrameLength
    ensures DecodeLength(EncodeLength(n)) == n
  {
    var m1 := n / 0x100;
    var m2 := m1 / 0x100;
    var h := EncodeLength(n);
    assert h[0] as nat * 0x100 + h[1] as nat == m2;
    assert m2 * 0x100 + h[2] as nat == m1;
    assert m1 * 0x100 + h[3] as nat == n;
  }

  /** A message preceded by its length. */
  function Frame(msg: seq<byte>): (f: seq<byte>)
    requires |msg| < MaxFrameLength
    ensures |f| == HeaderSize + |msg|
    ensures f[HeaderSize..] == msg
  {
    EncodeLength(|msg|) + msg
  }

  /** Reads one frame off the front of a byte stream: its message and the bytes
      that follow, or `None` when the stream does not yet hold a whole frame. */
  function Unframe(stream: seq<byte>): (r: Option<(seq<byte>, seq<byte>)>)
    ensures r.Some? ==> |stream| >= HeaderSize + |r.value.0|
    ensures r.Some? ==> stream == stream[..HeaderSize] + r.value.0 + r.value.1
    ensures r.Some? ==> |r.value.0| == DecodeLength(stream[..HeaderSize])
    ensures r.None? <==> |stream| < HeaderSize || |stream| < HeaderSize + DecodeLength(stream[..HeaderSize])
  {
    if |stream| < HeaderSize then None
    else
      var n := DecodeLength(stream[..HeaderSize]);
      if |stream| < HeaderSize + n then None
      else
        assert stream == stream[..HeaderSize] + stream[HeaderSize..HeaderSize + n] + stream[HeaderSize + n..];
        Some((stream[HeaderSize..HeaderSize + n], stream[HeaderSize + n..]))
  }

  /** Unframing a framed message gives the message and leaves what followed. */
  lemma UnframeFrame(msg: seq<byte>, rest: seq<byte>)
    requires |msg| < MaxFrameLength
    ensures Unframe(Frame(msg) + rest) == Some((msg, rest))
  {
    var s := Frame(msg) + rest;
    assert s[..HeaderSize] == EncodeLength(|msg|);
    DecodeEncodeLength(|msg|);
    assert s[HeaderSize..HeaderSize + |msg|] == msg;
    assert s[HeaderSize + |msg|..] == rest;
  }

  /** The corrected request read loop: accumulate received chunks until the
      buffer holds a whole frame. Returns the message and how many chunks were
      read, or `None` while the frame is incomplete. Chunk sizes play no part. */
  function ReadFramed(chunks: seq<seq<byte>>, buffer: seq<byte>): (r: Option<(seq<byte>, nat)>)
    ensures r.Some? ==> r.value.1 <= |chunks|
    ensures r.Some? ==> Unframe(buffer + Concat(chunks[..r.value.1])).Some?
    ensures r.Some? ==> r.value.0 == Unframe(buffer + Concat(chunks[..r.value.1])).value.0
    decreases |chunks|
  {
    match Unframe(buffer)
    case Some((msg, _)) =>
      assert chunks[..0] == [] && buffer + [] == buffer;
      Some((msg, 0))
    case None =>
      if |chunks| == 0 then None
      else
        match ReadFramed(chunks[1..], buffer + chunks[0])
        case None => None
        case Some((msg, k)) =>
          BufferAfterChunks(chunks, buffer, k);
          Some((msg, k + 1))
  }

  /** Reading the first chunk into the buffer and then `k` more chunks is
      reading `k + 1` chunks. */
  lemma BufferAfterChunks(chunks: seq<seq<byte>>, buffer: seq<byte>, k: nat)
    requires 0 < |chunks| && k < |chunks|
    ensures buffer + Concat(chunks[..k + 1]) == (buffer + chunks[0]) + Concat(chunks[1..][..k])
  {
    assert chunks[..k + 1] == [chunks[0]] + chunks[1..][..k];
    ConcatCons(chunks[0], chunks[1..][..k]);
  }

  /** However the sender's bytes are cut into chunks, once they hold a whole
      frame the corrected reader returns exactly the framed message, whatever
      its length, a multiple of 4096 bytes included. */
  lemma {:induction false} ReadFramedDelivers(chunks: seq<seq<byte>>, buffer: seq<byte>, msg: seq<byte>, rest: seq<byte>)
    requires |msg| < MaxFrameLength
    requires buffer + Concat(chunks) == Frame(msg) + rest
    ensures ReadFramed(chunks, buffer).Some?
    ensures ReadFramed(chunks, buffer).value.0 == msg
    decreases |chunks|
  {
    UnframeFrame(msg, rest);
    match Unframe(buffer)
    case Some((m, after)) =>
      // The buffer already holds a whole frame, so its header is the frame's header.
      assert buffer[..HeaderSize] == (Frame(msg) + rest)[..HeaderSize];
      assert m == (Frame(msg) + rest)[HeaderSize..HeaderSize + |m|];
    case None =>
      if |chunks| > 0 {
        ConcatCons(chunks[0], chunks[1..]);
        assert [chunks[0]] + chunks[1..] == chunks;
        ReadFramedDelivers(chunks[1..], buffer + chunks[0], msg, rest);
      }
  }

  /** A request of exactly 4096 bytes that arrives in one full chunk is complete,
      yet the source's read loop is still waiting; the framed reader returns it. */
  lemma FullChunkRequestCounterexample()
    ensures var req := seq(RequestChunk, _ => 0 as byte);
      && ReadRequest([req]) == None
      && ReadFramed([Frame(req)], []) == Some((req, 1))
  {
    var req := seq(RequestChunk, _ => 0 as byte);
    assert Unframe([]) == None;
    UnframeFrame(req, []);
    assert Frame(req) + [] == Frame(req);
    assert [] + Frame(req) == Frame(req);
    assert Unframe(Frame(req)) == Some((req, []));
    assert ReadFramed([], Frame(req)) == Some((req, 0));
    assert [Frame(req)][1..] == [];
  }
}

=== FILE: user_store.dfy ===
/** The in-memory user table of the storage web API (backend_api.py): login
    against a password hash and quota expansion. The table is the dictionary
    `users_db` from email to user record, kept in insertion order because
    `expand_storage` takes the first record whose user id matches. The hash
    function (SHA-256 in hex) is a parameter. */
module UserStore {
  import opened Common
  import opened Text

  datatype UserRecord = UserRecord(
    passwordHash: string,
    userId: string,
    name: string,
    quota: int,
    used: int)

  /** The record without its password hash, as a successful login returns it. */
  datatype PublicUser = PublicUser(userId: string, name: string, quota: int, used: int)

  datatype Entry = Entry(email: string, record: UserRecord)

  type Db = seq<Entry>

  /** Emails are the dictionary's keys, so no two entries share one. */
  predicate UniqueEmails(db: Db) {
    forall i, j | 0 <= i < j < |db| :: db[i].email != db[j].email
  }

  function Public(u: UserRecord): (p: PublicUser)
    ensures p.userId == u.userId && p.name == u.name && p.quota == u.quota && p.used == u.used
  {
    PublicUser(u.userId, u.name, u.quota, u.used)
  }

  /** The record stored under an email (`users_db[email]`). */
  function RecordOf(db: Db, email: string): (r: Option<UserRecord>)
    ensures r.None? <==> forall i | 0 <= i < |db| :: db[i].email != email
    ensures r.Some? ==> exists i | 0 <= i < |db| :: db[i] == Entry(email, r.value)
    decreases |db|
  {
    if |db| == 0 then None
    else if db[0].email == email then Some(db[0].record)
    else
      var r := RecordOf(db[1..], email);
      assert forall i | 1 <= i < |db| :: db[i] == db[1..][i - 1];
      r
  }

  // ---------------------------------------------------------------------------
  // Login

  const InvalidCredentials: string := "Invalid credentials"

  /** `ServerError` is the HTTP 500 Flask answers when the handler raises. */
  datatype LoginReply = LoggedIn(user: PublicUser) | LoginFailed(message: string) | ServerError

  /** backend_api.py `login`: succeeds exactly when the email is a key of the
      table and the hash of the password equals the stored hash; the reply is
      the stored record without the hash. A known email without a password
      raises (`None.encode()`), an unknown one is refused before the password
      is looked at. The table is not touched. */
  function Login(db: Db, email: Option<string>, password: Option<string>, hash: string -> string): (r: LoginReply)
    requires UniqueEmails(db)
    ensures r.LoggedIn? <==>
      exists i | 0 <= i < |db| ::
        Some(db[i].email) == email && password.Some? && db[i].record.passwordHash == hash(password.value)
    ensures r.LoggedIn? ==>
      exists i | 0 <= i < |db| :: Some(db[i].email) == email && r.user == Public(db[i].record)
    ensures r.ServerError? <==> password.None? && exists i | 0 <= i < |db| :: Some(db[i].email) == email
    ensures r.LoginFailed? ==> r.message == InvalidCredentials
  {
    if email.Some? && RecordOf(db, email.value).Some? then
      var u := RecordOf(db, email.value).value;
      if password.None? then ServerError
      else if u.passwordHash == hash(password.value) then LoggedIn(Public(u))
      else LoginFailed(InvalidCredentials)
    else LoginFailed(InvalidCredentials)
  }

  // ---------------------------------------------------------------------------
  // Quota expansion

  const DefaultExpansionGb: int := 5
  const UserNotFound: string := "User not found"

  datatype ExpandReply =
    | Expanded(newQuota: int, message: string)
    | ExpandFailed(message: string)

  /** Position of the first record with the given user id (`for u in users_db.values()`). */
  function FindUser(db: Db, userId: Option<string>): (r: Option<nat>)
    ensures r.None? <==> forall i | 0 <= i < |db| :: Some(db[i].record.userId) != userId
    ensures r.Some? ==> r.value < |db| && Some(db[r.value].record.userId) == userId
    ensures r.Some? ==> forall i | 0 <= i < r.value :: Some(db[i].record.userId) != userId
    decreases |db|
  {
    if |db| == 0 then None
    else if Some(db[0].record.userId) == userId then Some(0)
    else
      var r := FindUser(db[1..], userId);
      assert forall i | 1 <= i < |db| :: db[i] == db[1..][i - 1];
      if r.None? then None else Some(r.value + 1)
  }

  /** `db'` is `db` with `gb` GiB added to the quota of the first record whose
      user id is `userId`, which sits at position `i`. */
  predicate ExpandedAt(db: Db, db': Db, userId: Option<string>, gb: int, i: int) {
    && 0 <= i < |db| && |db'| == |db|
    && Some(db[i].record.userId) == userId
    && (forall j | 0 <= j < i :: Some(db[j].record.userId) != userId)
    && db'[i] == db[i].(record := db[i].record.(quota := db[i].record.quota + gb * GiB))
    && (forall j | 0 <= j < |db| && j != i :: db'[j] == db[j])
  }

  /** backend_api.py `expand_storage`: the first user with the id gets
      `additional_gb` (5 when absent) GiB more quota; everything else stays. An
      unknown id is an error and leaves the table as it was. */
  function ExpandStorage(db: Db, userId: Option<string>, additionalGb: Option<int>): (out: (Db, ExpandReply))
    ensures out.1.ExpandFailed? <==> forall i | 0 <= i < |db| :: Some(db[i].record.userId) != userId
    ensures out.1.ExpandFailed? ==> out == (db, ExpandFailed(UserNotFound))
    ensures |out.0| == |db|
    ensures out.1.Expanded? ==>
      exists i :: ExpandedAt(db, out.0, userId, additionalGb.GetOr(DefaultExpansionGb), i)
                  && out.1.newQuota == out.0[i].record.quota
    ensures out.1.Expanded? ==>
      out.1.message == "Storage expanded by " + IntToString(additionalGb.GetOr(DefaultExpansionGb)) + "GB"
  {
    match FindUser(db, userId)
    case None => (db, ExpandFailed(UserNotFound))
    case Some(i) =>
      var gb := additionalGb.GetOr(DefaultExpansionGb);
      var u := db[i].record;
      var u' := u.(quota := u.quota + gb * GiB);
      var db' := db[i := db[i].(record := u')];
      assert ExpandedAt(db, db', userId, gb, i);
      (db', Expanded(u'.quota, "Storage expanded by " + IntToString(gb) + "GB"))
  }

  /** Expansion keeps the emails, so it keeps them unique. */
  lemma ExpandKeepsEmails(db: Db, userId: Option<string>, additionalGb: Option<int>)
    ensures var db' := ExpandStorage(db, userId, additionalGb).0;
      forall i | 0 <= i < |db| :: db'[i].email == db[i].email
    ensures UniqueEmails(db) ==> UniqueEmails(ExpandStorage(db, userId, additionalGb).0)
  {
  }

  /** Expanding twice by `a` and then `b` GiB adds `a + b` GiB to the same record. */
  lemma ExpandTwiceAdds(db: Db, userId: Option<string>, a: int, b: int)
    requires FindUser(db, userId).Some?
    ensures var i := FindUser(db, userId).value;
      var db2 := ExpandStorage(ExpandStorage(db, userId, Some(a)).0, userId, Some(b)).0;
      && db2[i].record.quota == db[i].record.quota + (a + b) * GiB
      && forall j | 0 <= j < |db| && j != i :: db2[j] == db[j]
  {
    var i := FindUser(db, userId).value;
    var db1 := ExpandStorage(db, userId, Some(a)).0;
    assert db1[i].record.userId == db[i].record.userId;
    assert forall j | 0 <= j < i :: db1[j] == db[j];
    FindUserFirst(db1, userId, i);
    var db2 := ExpandStorage(db1, userId, Some(b)).0;
    assert db2[i].record.quota == db1[i].record.quota + b * GiB;
    assert db1[i].record.quota == db[i].record.quota + a * GiB;
  }

  /** The first matching position is the one `FindUser` returns. */
  lemma FindUserFirst(db: Db, userId: Option<string>, i: nat)
    requires i < |db| && Some(db[i].record.userId) == userId
    requires forall j | 0 <= j < i :: Some(db[j].record.userId) != userId
    ensures FindUser(db, userId) == Some(i)
  {
  }

  /** With unique emails, the record under an entry's email is that entry's. */
  lemma {:induction false} RecordOfAt(db: Db, i: nat)
    requires UniqueEmails(db) && i < |db|
    ensures RecordOf(db, db[i].email) == Some(db[i].record)
    decreases i
  {
    if i > 0 {
      assert db[0].email != db[i].email;
      assert db[1..][i - 1] == db[i];
      RecordOfAt(db[1..], i - 1);
    }
  }

  /** Logging in with an entry's email checks that entry's stored hash. */
  lemma LoginAt(db: Db, i: nat, password: Option<string>, hash: string -> string)
    requires UniqueEmails(db) && i < |db|
    ensures Login(db, Some(db[i].email), password, hash) ==
      if password.None? then ServerError
      else if db[i].record.passwordHash == hash(password.value) then LoggedIn(Public(db[i].record))
      else LoginFailed(InvalidCredentials)
  {
    RecordOfAt(db, i);
  }

  /** The table after expanding the user found at position `i`. */
  lemma ExpandAt(db: Db, userId: Option<string>, gb: int, i: nat)
    requires FindUser(db, userId) == Some(i)
    ensures ExpandStorage(db, userId, Some(gb)).0 ==
      db[i := db[i].(record := db[i].record.(quota := db[i].record.quota + gb * GiB))]
  {
  }

  /** A user who can log in and is the first with their id sees, after an
      expansion of their quota, the expanded quota on the next login. */
  lemma LoginSeesExpansion(db: Db, i: nat, password: string, hash: string -> string, gb: int)
    requires UniqueEmails(db) && i < |db|
    requires db[i].record.passwordHash == hash(password)
    requires FindUser(db, Some(db[i].record.userId)) == Some(i)
    ensures var u := db[i].record;
      var db' := ExpandStorage(db, Some(u.userId), Some(gb)).0;
      && Login(db, Some(db[i].email), Some(password), hash) == LoggedIn(Public(u))
      && UniqueEmails(db')
      && Login(db', Some(db[i].email), Some(password), hash) == LoggedIn(Public(u.(quota := u.quota + gb * GiB)))
  {
    var uid := Some(db[i].record.userId);
    LoginAt(db, i, Some(password), hash);
    ExpandKeepsEmails(db, uid, Some(gb));
    ExpandedLogin(db, i, password, hash, gb);
  }

  /** The login half of `LoginSeesExpansion`, given that the expanded table
      keeps its emails unique. */
  lemma ExpandedLogin(db: Db, i: nat, password: string, hash: string -> string, gb: int)
    requires i < |db| && db[i].record.passwordHash == hash(password)
    requires FindUser(db, Some(db[i].record.userId)) == Some(i)
    requires UniqueEmails(ExpandStorage(db, Some(db[i].record.userId), Some(gb)).0)
    ensures Login(ExpandStorage(db, Some(db[i].record.userId), Some(gb)).0, Some(db[i].email), Some(password), hash)
        == LoggedIn(Public(db[i].record.(quota := db[i].record.quota + gb * GiB)))
  {
    ExpandAt(db, Some(db[i].record.userId), gb, i);
    LoginAt(ExpandStorage(db, Some(db[i].record.userId), Some(gb)).0, i, Some(password), hash);
  }

  // ---------------------------------------------------------------------------
  // The shipped table

  const DemoEmail: string := "demo@example.com"
  const DemoPassword: string := "demo123"

  /** The demo account the API starts with, its password stored as `hash("demo123")`. */
  function DemoDb(hash: string -> string): (db: Db)
    ensures |db| == 1 && UniqueEmails(db)
    ensures db[0].email == DemoEmail && db[0].record.quota == 5 * GiB && db[0].record.used == 0
  {
    [Entry(DemoEmail, UserRecord(hash(DemoPassword), "user_demo", "Demo User", 5 * GiB, 0))]
  }

  /** The demo account logs in with its password, whatever the hash function,
      and one default expansion brings it to 10 GiB. */
  lemma DemoAccount(hash: string -> string)
    ensures Login(DemoDb(hash), Some(DemoEmail), Some(DemoPassword), hash)
      == LoggedIn(PublicUser("user_demo", "Demo User", 5 * GiB, 0))
    ensures Login(DemoDb(hash), Some(DemoEmail), None, hash) == ServerError
    ensures Login(DemoDb(hash), Some("someone@else"), None, hash) == LoginFailed(InvalidCredentials)
    ensures ExpandStorage(DemoDb(hash), Some("user_demo"), None).1.Expanded?
    ensures ExpandStorage(DemoDb(hash), Some("user_demo"), None).1.newQuota == 10 * GiB
    ensures ExpandStorage(DemoDb(hash), Some("someone_else"), None).1 == ExpandFailed(UserNotFound)
  {
    var db := DemoDb(hash);
    assert "someone_else" != "user_demo" by {
      assert "someone_else"[0] != "user_demo"[0];
    }
  }
}

=== FILE: validation.dfy ===
/** The sign-up checks of the certificate web application (app.py): password
    strength, the email pattern, and the order in which `signup` applies them
    to its normalised form fields. */
module Validation {
  import opened Text

  // ---------------------------------------------------------------------------
  // Password

  /** Some character of `s` lies in the ASCII range `lo..hi` (`re.search('[lo-hi]', s)`). */
  function HasCharIn(s: string, lo: char, hi: char): (b: bool)
    ensures b <==> exists i | 0 <= i < |s| :: lo <= s[i] <= hi
    decreases |s|
  {
    if |s| == 0 then false
    else if lo <= s[0] <= hi then true
    else
      var b := HasCharIn(s[1..], lo, hi);
      assert (exists i | 0 <= i < |s[1..]| :: lo <= s[1..][i] <= hi) <==>
             (exists i | 1 <= i < |s| :: lo <= s[i] <= hi) by {
        forall i | 1 <= i < |s| ensures s[i] == s[1..][i - 1] {}
      }
      b
  }

  const MinPasswordLength: nat := 8

  const PasswordTooShort: string := "Le mot de passe doit contenir au moins 8 caractères"
  const PasswordNeedsUpper: string := "Le mot de passe doit contenir au moins une majuscule"
  const PasswordNeedsLower: string := "Le mot de passe doit contenir au moins une minuscule"
  const PasswordNeedsDigit: string := "Le mot de passe doit contenir au moins un chiffre"
  const PasswordOk: string := "Mot de passe valide"

  /** The pair `validate_password` returns. */
  datatype Verdict = Verdict(valid: bool, message: string)

  /** app.py `validate_password`: length first, then an ASCII capital, a small
      letter and a digit, in that order; the first failing check names the fault. */
  function ValidatePassword(p: string): (v: Verdict)
    ensures v.valid <==>
      && |p| >= MinPasswordLength
      && (exists i | 0 <= i < |p| :: 'A' <= p[i] <= 'Z')
      && (exists i | 0 <= i < |p| :: 'a' <= p[i] <= 'z')
      && (exists i | 0 <= i < |p| :: '0' <= p[i] <= '9')
    ensures v.valid <==> v.message == PasswordOk
    ensures |p| < MinPasswordLength ==> v.message == PasswordTooShort
    ensures |p| >= MinPasswordLength && (forall i | 0 <= i < |p| :: !('A' <= p[i] <= 'Z')) ==>
              v.message == PasswordNeedsUpper
    ensures |p| >= MinPasswordLength && (exists i | 0 <= i < |p| :: 'A' <= p[i] <= 'Z')
            && (forall i | 0 <= i < |p| :: !('a' <= p[i] <= 'z')) ==>
              v.message == PasswordNeedsLower
    ensures |p| >= MinPasswordLength && (exists i | 0 <= i < |p| :: 'A' <= p[i] <= 'Z')
            && (exists i | 0 <= i < |p| :: 'a' <= p[i] <= 'z')
            && (forall i | 0 <= i < |p| :: !('0' <= p[i] <= '9')) ==>
              v.message == PasswordNeedsDigit
  {
    if |p| < MinPasswordLength then Verdict(false, PasswordTooShort)
    else if !HasCharIn(p, 'A', 'Z') then Verdict(false, PasswordNeedsUpper)
    else if !HasCharIn(p, 'a', 'z') then Verdict(false, PasswordNeedsLower)
    else if !HasCharIn(p, '0', '9') then Verdict(false, PasswordNeedsDigit)
    else Verdict(true, PasswordOk)
  }

  // ---------------------------------------------------------------------------
  // Email

  predicate IsAsciiLetter(c: char) {
    'a' <= c <= 'z' || 'A' <= c <= 'Z'
  }

  predicate IsAsciiAlnum(c: char) {
    IsAsciiLetter(c) || '0' <= c <= '9'
  }

  /** The class `[a-zA-Z0-9._%+-]` of the local part. */
  predicate IsLocalChar(c: char) {
    IsAsciiAlnum(c) || c == '.' || c == '_' || c == '%' || c == '+' || c == '-'
  }

  /** The class `[a-zA-Z0-9.-]` of the domain. */
  predicate IsDomainChar(c: char) {
    IsAsciiAlnum(c) || c == '.' || c == '-'
  }

  /** `at` and `dot` split `s` the way `[local]+@[domain]+\.[a-zA-Z]{2,}` matches
      all of it: a non-empty local part, the `@`, a non-empty domain, the `.`,
      and at least two letters. */
  predicate PatternSplit(s: string, at: int, dot: int) {
    && 0 < at && at + 1 < dot && dot + 2 < |s|
    && (forall i | 0 <= i < at :: IsLocalChar(s[i]))
    && s[at] == '@'
    && (forall i | at < i < dot :: IsDomainChar(s[i]))
    && s[dot] == '.'
    && (forall i | dot < i < |s| :: IsAsciiLetter(s[i]))
  }

  /** The whole of `s` matches the pattern. */
  ghost predicate MatchesWhole(s: string) {
    exists at, dot :: PatternSplit(s, at, dot)
  }

  /** `re.match(r'^...$', s)`: Python's `$` also matches just before a final
      newline, so the pattern may match `s` or `s` less one trailing `\n`. */
  ghost predicate EmailPattern(s: string) {
    MatchesWhole(s) || (|s| > 0 && s[|s| - 1] == '\n' && MatchesWhole(s[..|s| - 1]))
  }

  /** Position of the first `c` in `s`. */
  function FirstIndex(s: string, c: char): (r: int)
    ensures -1 <= r < |s|
    ensures r >= 0 ==> s[r] == c
    ensures forall i | 0 <= i < |s| && (r < 0 || i < r) :: s[i] != c
    decreases |s|
  {
    if |s| == 0 then -1
    else if s[0] == c then 0
    else
      var k := FirstIndex(s[1..], c);
      if k < 0 then -1 else k + 1
  }

  /** Position of the last `c` in `s`. */
  function LastIndex(s: string, c: char): (r: int)
    ensures -1 <= r < |s|
    ensures r >= 0 ==> s[r] == c
    ensures forall i | r < i < |s| :: s[i] != c
    decreases |s|
  {
    if |s| == 0 then -1
    else if s[|s| - 1] == c then |s| - 1
    else LastIndex(s[..|s| - 1], c)
  }

  /** The pattern decided by one scan: the local part runs up to the first `@`
      (the local class has no `@`), the top-level label starts after the last
      `.` (letters have no `.`). */
  function MatchesWholeScan(s: string): (b: bool)
    ensures b <==> MatchesWhole(s)
  {
    var at := FirstIndex(s, '@');
    var dot := LastIndex(s, '.');
    var b := PatternSplit(s, at, dot);
    assert MatchesWhole(s) ==> b by {
      if MatchesWhole(s) {
        var at', dot' :| PatternSplit(s, at', dot');
        assert !IsLocalChar('@') && !IsAsciiLetter('.');
        assert at == at';
        assert dot == dot';
      }
    }
    b
  }

  /** app.py `validate_email`. */
  function ValidateEmail(s: string): (b: bool)
    ensures b <==> EmailPattern(s)
  {
    MatchesWholeScan(s) || (|s| > 0 && s[|s| - 1] == '\n' && MatchesWholeScan(s[..|s| - 1]))
  }

  // ---------------------------------------------------------------------------
  // Sign-up

  /** The email as `signup` sees it: `.strip().lower()`. */
  function NormalizeEmail(raw: string): (e: string)
    ensures |e| > 0 ==> !IsSpace(e[0]) && !IsSpace(e[|e| - 1])
    ensures forall i | 0 <= i < |e| :: !('A' <= e[i] <= 'Z')
    ensures |e| == |Strip(raw)|
    ensures forall i | 0 <= i < |e| :: e[i] == LowerChar(Strip(raw)[i])
  {
    var r := Strip(raw);
    if |r| == 0 then Lower(r)
    else
      LowerKeepsSpace(r[0]);
      LowerKeepsSpace(r[|r| - 1]);
      Lower(r)
  }

  const NameRequired: string := "Le nom de l'institution est requis"
  const InvalidEmail: string := "Adresse email invalide"
  const PasswordMismatch: string := "Les mots de passe ne correspondent pas"
  const EmailTaken: string := "Cet email est déjà utilisé"

  datatype SignupOutcome =
    | Accepted(name: string, email: string)
    | Rejected(error: string)

  /** The checks of app.py `signup`, in their order: the stripped name, the
      normalised email, the password, the confirmation, and whether an
      institution already uses the email (`taken`). */
  function SignupCheck(name: string, email: string, password: string, confirm: string, taken: set<string>)
    : (r: SignupOutcome)
    ensures r.Accepted? <==>
      && |Strip(name)| > 0
      && EmailPattern(NormalizeEmail(email))
      && ValidatePassword(password).valid
      && password == confirm
      && NormalizeEmail(email) !in taken
    ensures r.Accepted? ==> r.name == Strip(name) && r.email == NormalizeEmail(email)
    ensures |Strip(name)| == 0 ==> r == Rejected(NameRequired)
    ensures |Strip(name)| > 0 && !EmailPattern(NormalizeEmail(email)) ==> r == Rejected(InvalidEmail)
    ensures |Strip(name)| > 0 && EmailPattern(NormalizeEmail(email)) && !ValidatePassword(password).valid ==>
              r == Rejected(ValidatePassword(password).message)
    ensures (&& |Strip(name)| > 0 && EmailPattern(NormalizeEmail(email)) && ValidatePassword(password).valid
             && password != confirm) ==> r == Rejected(PasswordMismatch)
    ensures (&& |Strip(name)| > 0 && EmailPattern(NormalizeEmail(email)) && ValidatePassword(password).valid
             && password == confirm && NormalizeEmail(email) in taken) ==> r == Rejected(EmailTaken)
  {
    var n := Strip(name);
    var e := NormalizeEmail(email);
    if |n| == 0 then Rejected(NameRequired)
    else if !ValidateEmail(e) then Rejected(InvalidEmail)
    else if !ValidatePassword(password).valid then Rejected(ValidatePassword(password).message)
    else if password != confirm then Rejected(PasswordMismatch)
    else if e in taken then Rejected(EmailTaken)
    else Accepted(n, e)
  }

  /** An email accepted at sign-up matches the pattern outright: the stripping
      has removed any trailing newline Python's `$` would have tolerated. */
  lemma AcceptedEmailMatchesWhole(name: string, email: string, password: string, confirm: string, taken: set<string>)
    requires SignupCheck(name, email, password, confirm, taken).Accepted?
    ensures MatchesWhole(SignupCheck(name, email, password, confirm, taken).email)
  {
    var e := NormalizeEmail(email);
    assert '\n' in Whitespace;
  }

  /** The top-level label needs two letters: `"a@b.c"` is rejected and
      `"a@b.co"` accepted. */
  lemma TopLevelLabelBoundary()
    ensures !ValidateEmail("a@b.c") && !MatchesWhole("a@b.c")
    ensures ValidateEmail("a@b.co")
  {
    assert PatternSplit("a@b.co", 1, 3);
    assert !MatchesWholeScan("a@b.c") by {
      assert LastIndex("a@b.c", '.') == 3;
    }
    assert !ValidateEmail("a@b.c") by {
      assert "a@b.c"[4] != '\n';
    }
  }

  /** The trailing-newline allowance is real: `"a@b.co\n"` passes the check
      although the pattern proper does not match it, while `"a@b.co"` followed
      by a space does not pass. */
  lemma TrailingNewlineAccepted()
    ensures ValidateEmail("a@b.co\n") && !MatchesWhole("a@b.co\n")
    ensures !ValidateEmail("a@b.co ")
    ensures ValidateEmail("a@b.co")
  {
    assert PatternSplit("a@b.co", 1, 3);
    assert "a@b.co\n"[..6] == "a@b.co";
    assert !MatchesWholeScan("a@b.co\n") by {
      assert LastIndex("a@b.co\n", '.') == 3;
      assert !IsAsciiLetter("a@b.co\n"[6]);
    }
  }
}
